=== FILE: README.md ===
# Stress & calm compass: scoring engine and collection flow in Dafny

This project models two parts of an emotional-intelligence self-assessment
that works under stress.

The first part is the **scoring engine** (`src/utils/scoring.ts`). It turns a
list of answers into:

- a 0–100 score for each dimension, found through a hand-curated table of
  question ids;
- a five-step band ("Very Low" … "Very High") and an interpretation sentence
  for each score;
- the results record: the five core dimensions in fixed order, their
  unweighted mean, five PEARL scores, a respondent profile, strengths, growth
  areas and breathing/awareness tips.

The second part is the **collection flow** (`src/components/AssessmentFlow.tsx`)
without its rendering. It keeps a question index and the list of answers. It
records one answer per question, moves forward and back, decides whether the
Next button is enabled, and reports which sections are complete. Its two
callbacks, `onComplete` and `onBack`, become the effect tag of a step.

A third, small module holds the shipped question catalogue
(`src/data/questions.ts`). It keeps only the ids, kinds, sections and option
scores, so that the flow's and the engine's properties can be stated over
the real data.

Modules:

| module | file | content |
|---|---|---|
| `Wrappers` | wrappers.dfy | `Option` |
| `Text` | text.dfy | ASCII lower-casing; replacing the first occurrence of a character |
| `Labels` | labels.dfy | score bands and interpretation sentences |
| `Assessment` | assessment.dfy | questions, responses, results records |
| `Scoring` | scoring.dfy | the evidence table, dimension scores, profile, advice, results |
| `Flow` | flow.dfy | the collection flow's state, handlers and section progress |
| `Questions` | questions.dfy | the shipped catalogue and properties that hold for it |
| `LabelProperties`, `ScoringProperties`, `ResultsProperties`, `AdviceProperties`, `FlowProperties` | `*_properties.dfy` | lemmas |

Scores are real numbers, so the division and rescaling are exact.

Behaviour of the code worth knowing:

- `f3` and `s2` are evidence for self-regulation as well as self-awareness
  (`src/utils/scoring.ts:8-9`). An answer set of `f1`, `f3` and `s2` all at 5
  therefore also gives self-regulation a nonzero score.
- Nothing inverts reverse-scored answers. The `reverseScored` flag is carried
  as data and never read, and answers are summed as recorded.
- The personality answers (`p1`–`p6`) and the PEARL answers other than
  `pearl2` change none of the core results (`Questions.PersonalityAnswersIgnored`).
  `pearl2` is empathy evidence, so it does move core empathy and the overall
  score (`ResultsProperties.PearlAnswerMovesEmpathy`).
- A confidence of 0 is replaced by 50 when another option is chosen
  (`confidence || 50`, `src/components/AssessmentFlow.tsx:150`).
- An option id that is the empty string does not count as a selection
  (`Flow.HasSelection`).

## Model

| member | source | states |
|---|---|---|
| `Labels.ScoreLabel` | src/utils/scoring.ts:31-37 | each band holds exactly the scores from its lower bound (81, 61, 41, 21) up to the next band's bound; every score is in exactly one band |
| `LabelProperties.LabelMonotone` | src/utils/scoring.ts:31-37 | a higher score never gets a lower band |
| `LabelProperties.LabelBoundaries` | src/utils/scoring.ts:31-37 | 81, 61, 41 and 21 belong to the higher band, and 80, 60, 40 and 20 to the lower |
| `Labels.CuratedInterpretation` | src/utils/scoring.ts:42-57 | curated text exists exactly for self-awareness and self-regulation, in every band, and it is never empty |
| `LabelProperties.InterpretationText` | src/utils/scoring.ts:39-60 | the interpretation is never empty; it is the curated sentence for a curated dimension; otherwise it is "Your <dimension> score is <band in lower case>." |
| `Labels.ScoreInterpretation` | src/utils/scoring.ts:39-60 | the interpretation is never empty; a curated dimension gets the curated sentence for its band; any other dimension gets the templated sentence for its band |
| `LabelProperties.LowerCaseLabels` | src/utils/scoring.ts:59 | the lower-cased band names are "very high", "high", "moderate", "low" and "very low" |
| `Text.ReplaceFirst` | src/utils/scoring.ts:125 | the result has the input's length; only the first occurrence of the character changes; an input without it is unchanged |
| `AdviceProperties.ReadableAt` | src/utils/scoring.ts:125-127 | a name whose only hyphen is at position i reads with a space at i and is otherwise unchanged |
| `ScoringProperties.NameRoundTrip` | src/utils/scoring.ts:7-17 | every dimension is found in the table under its own name, and any name the table knows names that dimension |
| `ScoringProperties.ScoreByName` | src/utils/scoring.ts:3-29 | scoring a known dimension by name scores its table entry |
| `ScoringProperties.RelevantIff` | src/utils/scoring.ts:4-20 | a response counts for a dimension exactly when the response list holds it and its question id is in the dimension's table entry |
| `ScoringProperties.NoEntryScoresZero` | src/utils/scoring.ts:19-22 | a name without a table entry has no evidence and scores 0 |
| `Scoring.CalculateDimensionScore` | src/utils/scoring.ts:3-29 | a name without a table entry, or a response list with no evidence for the name, scores 0; `ScoreByName`, `ScoreBounds` and `ScaleAnchors` state the rest |
| `Scoring.ScoreOf` | src/utils/scoring.ts:22 | a score with no matching response is 0 |
| `ScoringProperties.RelevantAppend` | src/utils/scoring.ts:4-20 | the evidence drawn from two concatenated response lists is the evidence of the first followed by that of the second |
| `ScoringProperties.SumBounds` | src/utils/scoring.ts:24 | n answers on the 1..5 scale sum to between n and 5n |
| `ScoringProperties.ScoreBounds` | src/utils/scoring.ts:22-28 | with every answer on the 1..5 scale, every dimension score, known or not, lies in 0..100 |
| `ScoringProperties.UniformEvidence` | src/utils/scoring.ts:24-28 | when all the evidence has the same value v, the score is (v − 1) · 25 |
| `ScoringProperties.ScaleAnchors` | src/utils/scoring.ts:24-28 | whatever the spread of the evidence, the score is (mean − 1) · 25, so a mean of 1, 3 or 5 scores 0, 50 or 100 |
| `ScoringProperties.MixedMidpoint` | src/utils/scoring.ts:8-28 | self-awareness answered 1 on f1 and 5 on f3 scores 50 |
| `ScoringProperties.ExtremeMeans` | src/utils/scoring.ts:24-28 | with every answer on the 1..5 scale, the evidence has mean 1 exactly when every piece is 1, and mean 5 exactly when every piece is 5 |
| `ScoringProperties.SingleEvidence` | src/utils/scoring.ts:24-28 | a single piece of evidence scores its own rescaled value |
| `ScoringProperties.RaiseValueMonotone` | src/utils/scoring.ts:24-28 | raising one evidence value never lowers the score, and raising it strictly raises the score strictly |
| `ScoringProperties.ChangeUnmatchedValue` | src/utils/scoring.ts:4-20 | changing an answer that is not evidence leaves the score unchanged |
| `Scoring.CalculateResults` | src/utils/scoring.ts:63-73 | the results list has exactly five entries |
| `ResultsProperties.ResultsLayout` | src/utils/scoring.ts:63-73 | the entries name self-awareness, self-regulation, empathy, social skills and motivation, in that order |
| `ResultsProperties.EntryAt` | src/utils/scoring.ts:65-73 | entry k carries the k-th core name, that dimension's score, and the band of that score |
| `ResultsProperties.OverallIsMean` | src/utils/scoring.ts:75 | the overall score is the unweighted mean of the five entry scores |
| `ResultsProperties.PearlEmpathyIsCoreEmpathy` | src/utils/scoring.ts:77-83 | PEARL empathy equals the core empathy entry's score |
| `ResultsProperties.ResultsInRange` | src/utils/scoring.ts:62-100 | with every answer on the 1..5 scale, all entry scores, the overall score and all PEARL scores lie in 0..100 |
| `ResultsProperties.ScoreCoreCongruent` | src/utils/scoring.ts:65-73 | equal core scores give equal results lists |
| `ResultsProperties.NonCoreAnswersIgnored` | src/utils/scoring.ts:62-100 | adding answers that evidence no core dimension leaves the entries, the overall score, the profile, the strengths, the growth areas and the tips unchanged |
| `ResultsProperties.PearlAnswerMovesEmpathy` | src/utils/scoring.ts:10 | with no answers core empathy is 0, and a single pearl2 answer of 5 raises it to 100 |
| `Scoring.DetermineProfile` | src/utils/scoring.ts:102-116 | each of the four profiles is chosen exactly when its rule holds and no earlier rule does; the rules read the first entries named self-regulation, self-awareness and empathy |
| `AdviceProperties.FindScoreMissing` | src/utils/scoring.ts:103-105 | a name that no entry carries reads as 0 |
| `AdviceProperties.FindScoreAt` | src/utils/scoring.ts:103-105 | the first entry carrying the name supplies the score |
| `Scoring.FindScore` | src/utils/scoring.ts:103-105 | the score read for a name is 0 or the score of an entry carrying that name |
| `AdviceProperties.ProfileFromScores` | src/utils/scoring.ts:102-116 | the profile of a response list, stated over its self-awareness, self-regulation and empathy scores, both directions for all four profiles |
| `AdviceProperties.AdviceBands` | src/utils/scoring.ts:123-129 | an entry is a strength exactly from 70, a growth area exactly below 50, and never both |
| `Scoring.HumanName` | src/utils/scoring.ts:125-127 | the readable name has the name's length; a name without a hyphen is unchanged; the first hyphen becomes a space, and nothing else changes |
| `Scoring.Strengths` | src/utils/scoring.ts:123-125 | at most one strength per entry, each reading "Strong …" |
| `Scoring.GrowthAreas` | src/utils/scoring.ts:123-128 | at most one growth area per entry, each ending " development" |
| `AdviceProperties.AdviceCount` | src/utils/scoring.ts:123-129 | strengths and growth areas together number at most the entries, since no entry is both |
| `AdviceProperties.StrengthsIff` | src/utils/scoring.ts:123-129 | a string is a strength exactly when it is "Strong " and the readable name of an entry scoring 70 or more |
| `AdviceProperties.GrowthIff` | src/utils/scoring.ts:123-129 | a string is a growth area exactly when it is the readable name of an entry scoring below 50 followed by " development" |
| `AdviceProperties.StrengthsAppend` | src/utils/scoring.ts:123-129 | strengths keep list order |
| `AdviceProperties.GrowthAppend` | src/utils/scoring.ts:123-129 | growth areas keep list order |
| `Scoring.LowestIndex` | src/utils/scoring.ts:132-134 | the fold lands on a position of the list whose score is at most every score |
| `AdviceProperties.LowestIndexIsFirstMinimum` | src/utils/scoring.ts:132-134 | the fold lands on a minimum score, and no earlier entry ties it |
| `AdviceProperties.FirstMinimumUnique` | src/utils/scoring.ts:132-134 | a list has only one first minimum |
| `Scoring.Recommendations` | src/utils/scoring.ts:136-142 | the tips are the self-regulation pair, the self-awareness pair, or none |
| `AdviceProperties.TipsDistinct` | src/utils/scoring.ts:137-141 | the two tip lists are non-empty and differ |
| `AdviceProperties.RecommendationsOfCore` | src/utils/scoring.ts:132-142 | in a results list, self-regulation tips come exactly when self-regulation is strictly below self-awareness and at most every score; self-awareness tips come exactly when self-awareness is at most every score; there are no tips exactly when a later entry is strictly below both |
| `Scoring.GenerateRecommendations` | src/utils/scoring.ts:118-145 | at most one strength and one growth area per entry, in their fixed wording, and the tips are one of the two pairs or none; `StrengthsIff`, `GrowthIff`, `AdviceCount` and `RecommendationsOfCore` state which |
| `Flow.FindResponse` | src/components/AssessmentFlow.tsx:28 | nothing is found exactly when no response carries the id; a found response is the first in the list that carries the id |
| `Flow.FindOption` | src/components/AssessmentFlow.tsx:148 | nothing is found exactly when no option carries the id; a found option is the first of the question's options that carries the id |
| `Flow.Without` | src/components/AssessmentFlow.tsx:89 | the kept responses are exactly the responses to other questions, and there are no more of them than before; `WithoutOnly` and `WithoutSubsequence` state that their order is kept |
| `Flow.UpdateResponse` | src/components/AssessmentFlow.tsx:79-92 | the new response is last; no earlier response carries its question's id; responses to other questions are kept, and none is invented |
| `FlowProperties.UpdateOnly` | src/components/AssessmentFlow.tsx:88-91 | after an update, the responses to the question are exactly the new one, and the responses to each other question are what they were, in order |
| `FlowProperties.UpdateKeepsOrder` | src/components/AssessmentFlow.tsx:88-91 | the responses kept before the new one are the old list with some left out, in their old order |
| `FlowProperties.UpdateUnique` | src/components/AssessmentFlow.tsx:88-91 | a response list without two answers to one question keeps that property |
| `Flow.HandleNext` | src/components/AssessmentFlow.tsx:94-100 | the index grows by one exactly when it is below the last position; otherwise the index stays and the responses are handed over; the responses never change and the index stays valid |
| `Flow.HandlePrevious` | src/components/AssessmentFlow.tsx:102-108 | the index drops by one exactly when it is above 0; otherwise it stays and the page goes back; the responses never change and the index stays valid |
| `FlowProperties.NextThenPrevious` | src/components/AssessmentFlow.tsx:94-108 | away from the last question, Previous undoes Next |
| `FlowProperties.PreviousThenNext` | src/components/AssessmentFlow.tsx:94-108 | away from the first question, Next undoes Previous |
| `Flow.IsAnswered` | src/components/AssessmentFlow.tsx:110-116 | without a response the question is unanswered; a scenario is answered exactly when its response has a non-empty option id and a confidence; any other question is answered exactly when it has a response |
| `Flow.PickLikert` | src/components/AssessmentFlow.tsx:132-139 | the rating, with no confidence and no option, becomes the question's only response; the responses to every other question are kept and none is invented |
| `FlowProperties.RatingAnswers` | src/components/AssessmentFlow.tsx:110-139 | a rating answers any question that is not a scenario |
| `Flow.KeptConfidence` | src/components/AssessmentFlow.tsx:150 | the recorded confidence is the current non-zero confidence if there is one, and 50 otherwise |
| `Flow.SelectOption` | src/components/AssessmentFlow.tsx:147-152 | an unknown option id changes nothing; otherwise the question's only response records the first matching option's score and id, with the confidence kept or set to 50, and the responses to every other question are kept and none is invented |
| `FlowProperties.ChoiceAnswers` | src/components/AssessmentFlow.tsx:110-152 | choosing a known option with a non-empty id answers a scenario; an unknown id leaves the answered state as it was |
| `FlowProperties.ZeroConfidenceResets` | src/components/AssessmentFlow.tsx:150 | a confidence of 0 becomes 50 when an option is chosen |
| `Flow.ChangeConfidence` | src/components/AssessmentFlow.tsx:153-157 | with no recorded option nothing changes; otherwise the question's only response carries the new confidence with the value and option kept, and the responses to every other question are kept and none is invented |
| `FlowProperties.ConfidenceKeepsAnswer` | src/components/AssessmentFlow.tsx:110-157 | moving the confidence slider never makes a question unanswered |
| `Flow.Dispatch` | src/components/AssessmentFlow.tsx:94-185 | every action keeps the index valid; Next on an unanswered question does nothing; Next on an answered question before the last moves to the next question, and Previous above the first moves back, both with the responses unchanged; a rating on a Likert question, and an option or confidence on a scenario, apply that handler; responses are handed over exactly on Next at the answered last question, and go back exactly on Previous at the first; a rating on a non-Likert question, or an option or confidence on a non-scenario question, changes no response |
| `FlowProperties.DispatchOnly` | src/components/AssessmentFlow.tsx:79-157 | no action changes the responses to any question but the current one, in content or order; a rating, or a known option, leaves exactly the newly recorded response for the current question |
| `FlowProperties.InitInv` | src/components/AssessmentFlow.tsx:23-24 | the starting state, first question and no answers, satisfies the flow's invariant for any catalogue with a question |
| `FlowProperties.DispatchPreservesInv` | src/components/AssessmentFlow.tsx:79-157 | every user action keeps the index on a question, one response per question, and only catalogue questions answered |
| `FlowProperties.CompleteOnlyAtEnd` | src/components/AssessmentFlow.tsx:178-185 | the responses are handed over exactly on Next at the answered last question, and they are handed over unchanged |
| `FlowProperties.BackOnlyAtStart` | src/components/AssessmentFlow.tsx:102-108 | the page goes back to the introduction exactly on Previous at the first question |
| `FlowProperties.DispatchKeepsScale` | src/components/AssessmentFlow.tsx:132-157 | with ratings from 1 to 5 and options scored from 1 to 5, every recorded value stays on the 1..5 scale |
| `FlowProperties.SubmittedResultsInRange` | src/components/AssessmentFlow.tsx:94-100 | responses handed over by a flow that kept to the scale score every entry, the overall score and all five PEARL scores within 0..100 |
| `Flow.SectionProgress` | src/components/AssessmentFlow.tsx:30-77 | a section is listed as completed exactly when its response count equals its question count; the list is in presentation order; the current section is the current question's |
| `FlowProperties.SectionDoneIff` | src/components/AssessmentFlow.tsx:42-74 | with one response per question and distinct question ids, a section's count matches exactly when every question of the section has a response |
| `FlowProperties.ProgressMeansAnswered` | src/components/AssessmentFlow.tsx:30-77 | under the flow's invariant, a section is listed as completed exactly when every one of its questions has a response |
| `Questions.SectionsDistinct` | src/data/questions.ts:3-246 | no two questions of a section share an id |
| `Questions.CatalogueShape` | src/data/questions.ts:3-246 | the catalogue has 23 questions, and every scenario option scores between 1 and 5 |
| `Questions.OutsideCoreEvidence` | src/utils/scoring.ts:7-17 | no personality question, and no PEARL question except pearl2, is evidence for a core dimension |
| `Questions.PersonalityAnswersIgnored` | src/utils/scoring.ts:62-116 | answers to personality questions, or to PEARL questions other than pearl2, change no core entry, the overall score, the profile, the strengths, the growth areas or the tips |
| `Questions.CatalogueProgress` | src/components/AssessmentFlow.tsx:30-77 | over the shipped catalogue, a section is listed as completed exactly when each of its questions has a response |
| `Questions.CatalogueKeepsScale` | src/components/AssessmentFlow.tsx:132-157 | over the shipped catalogue, ratings from 1 to 5 keep every recorded value on the 1..5 scale |

## Left out

- Floating-point arithmetic: scores are exact reals, so IEEE rounding in the mean and the rescaling is not modelled.
- Timestamps: they are recorded on every response but never read.
- Rendering: the cards, buttons, progress bar, results page, icons and all wording. The Likert scale offers only the ratings 1 to 5 (src/components/LikertScale.tsx:39-42), and the model states this as a precondition.
- Question wording, descriptions, dimension tags and option texts in the catalogue: nothing in the engine or the flow reads them.
- JavaScript object-key lookup: a dimension name that is an inherited property of a plain object (such as "constructor") makes the source's table lookup throw. The model treats every unknown name as having no entry.
- The unused PEARL-score argument that `determineProfileLabel` and `generateRecommendations` take is dropped.
- Lower-casing and the hyphen replacement work on ASCII letters and characters only; Unicode case rules are not modelled.
- `Scoring.LowestIndex` requires a non-empty list, as the source's `reduce` without a seed does. The results list always has five entries.
- `Flow.Valid` requires the index to point at a question. The source reads the current question on every render and fails on an empty catalogue.
- Scoring.Recommendations: its own contract only says which of the three outcomes occurs. `AdviceProperties.RecommendationsOfCore` states when each one occurs.
- Scoring.GenerateRecommendations: its own contract states the shape of the advice. Which strengths, growth areas and tips occur is stated by `AdviceProperties.StrengthsIff`, `GrowthIff` and `RecommendationsOfCore`.
- Scoring.CalculateResults: its own contract only fixes the length of the list. The contents are stated by `ResultsProperties.EntryAt`, `OverallIsMean` and `ProfileFromScores`.
- AdviceProperties.StrengthsIff and AdviceProperties.GrowthIff: they state membership of the readable names. The exact readable text is stated for a single hyphen by `AdviceProperties.ReadableAt`, not for each core name literally.

=== FILE: advice_properties.dfy ===
/** Properties of the profile decision tree and the recommendation
    generator, first over any list of dimension scores, then over the list
    the results carry. */
module AdviceProperties {
  import opened Assessment
  import opened Scoring
  import opened ResultsProperties

  // ---------------------------------------------------------------------
  // Lookup by name
  // ---------------------------------------------------------------------

  /** A name no entry carries reads as 0. */
  lemma {:induction false} FindScoreMissing(ds: seq<DimensionScore>, dimension: string)
    requires forall i :: 0 <= i < |ds| ==> ds[i].dimension != dimension
    ensures FindScore(ds, dimension) == 0.0
  {
    if ds != [] {
      assert ds[0].dimension != dimension;
      assert forall i :: 0 <= i < |ds[1..]| ==> ds[1..][i].dimension != dimension by {
        forall i | 0 <= i < |ds[1..]| ensures ds[1..][i].dimension != dimension {
          assert ds[1..][i] == ds[i + 1];
        }
      }
      FindScoreMissing(ds[1..], dimension);
    }
  }

  /** The first entry carrying the name supplies the score. */
  lemma {:induction false} FindScoreAt(ds: seq<DimensionScore>, dimension: string, i: nat)
    requires i < |ds| && ds[i].dimension == dimension
    requires forall j :: 0 <= j < i ==> ds[j].dimension != dimension
    ensures FindScore(ds, dimension) == ds[i].score
  {
    if i > 0 {
      assert ds[0].dimension != dimension;
      assert forall j :: 0 <= j < i - 1 ==> ds[1..][j].dimension != dimension by {
        forall j | 0 <= j < i - 1 ensures ds[1..][j].dimension != dimension {
          assert ds[1..][j] == ds[j + 1];
        }
      }
      FindScoreAt(ds[1..], dimension, i - 1);
    }
  }

  /** In a results list, the profiler reads the first three core entries. */
  lemma CoreFindScores(ds: seq<DimensionScore>)
    requires CoreLayout(ds)
    ensures FindScore(ds, "self-awareness") == ds[0].score
    ensures FindScore(ds, "self-regulation") == ds[1].score
    ensures FindScore(ds, "empathy") == ds[2].score
  {
    FindScoreAt(ds, "self-awareness", 0);
    FindScoreAt(ds, "self-regulation", 1);
    FindScoreAt(ds, "empathy", 2);
  }

  // ---------------------------------------------------------------------
  // Profile
  // ---------------------------------------------------------------------

  /** The profile of a results list, by self-awareness (entry 0),
      self-regulation (entry 1) and empathy (entry 2). */
  lemma ProfileOfCore(ds: seq<DimensionScore>)
    requires CoreLayout(ds)
    ensures var a, r, e := ds[0].score, ds[1].score, ds[2].score;
      && (DetermineProfile(ds) == ResilientOperator <==> r >= 70.0 && a >= 70.0)
      && (DetermineProfile(ds) == EmpathicStabilizer <==> e >= 70.0 && r >= 60.0 && (r < 70.0 || a < 70.0))
      && (DetermineProfile(ds) == WatcherRegulator <==> a >= 60.0 && r < 60.0)
      && (DetermineProfile(ds) == ReactiveLearner <==>
            (r < 60.0 && a < 60.0) || (r >= 60.0 && e < 70.0 && (r < 70.0 || a < 70.0)))
  {
    CoreFindScores(ds);
  }

  /** The profile as a function of the core scores of the responses. */
  lemma ProfileFromScores(responses: seq<Response>)
    ensures var p := CalculateResults(responses).profileLabel;
      var a, r, e := CoreScore(responses, 0), CoreScore(responses, 1), CoreScore(responses, 2);
      && (p == ResilientOperator <==> r >= 70.0 && a >= 70.0)
      && (p == EmpathicStabilizer <==> e >= 70.0 && r >= 60.0 && (r < 70.0 || a < 70.0))
      && (p == WatcherRegulator <==> a >= 60.0 && r < 60.0)
      && (p == ReactiveLearner <==> (r < 60.0 && a < 60.0) || (r >= 60.0 && e < 70.0 && (r < 70.0 || a < 70.0)))
  {
    var ds := CalculateResults(responses).dimensionScores;
    ResultsLayout(responses);
    EntryAt(responses, 0);
    EntryAt(responses, 1);
    EntryAt(responses, 2);
    ProfileOfCore(ds);
  }

  // ---------------------------------------------------------------------
  // Strengths and growth areas
  // ---------------------------------------------------------------------

  /** Each entry is a strength (70 and above), a growth area (below 50) or
      neither (50 up to 70), never both. */
  lemma AdviceBands(d: DimensionScore)
    ensures StrengthOf(d) != [] <==> d.score >= 70.0
    ensures GrowthOf(d) != [] <==> d.score < 50.0
    ensures StrengthOf(d) == [] || GrowthOf(d) == []
  {
  }

  /** Strengths keep list order: those of a concatenation are those of the
      parts, concatenated. */
  lemma {:induction false} StrengthsAppend(a: seq<DimensionScore>, b: seq<DimensionScore>)
    ensures Strengths(a + b) == Strengths(a) + Strengths(b)
  {
    if a == [] {
      assert a + b == b;
    } else {
      assert (a + b)[0] == a[0];
      assert (a + b)[1..] == a[1..] + b;
      StrengthsAppend(a[1..], b);
      assert StrengthOf(a[0]) + (Strengths(a[1..]) + Strengths(b))
          == (StrengthOf(a[0]) + Strengths(a[1..])) + Strengths(b);
    }
  }

  /** Growth areas keep list order in the same way. */
  lemma {:induction false} GrowthAppend(a: seq<DimensionScore>, b: seq<DimensionScore>)
    ensures GrowthAreas(a + b) == GrowthAreas(a) + GrowthAreas(b)
  {
    if a == [] {
      assert a + b == b;
    } else {
      assert (a + b)[0] == a[0];
      assert (a + b)[1..] == a[1..] + b;
      GrowthAppend(a[1..], b);
      assert GrowthOf(a[0]) + (GrowthAreas(a[1..]) + GrowthAreas(b))
          == (GrowthOf(a[0]) + GrowthAreas(a[1..])) + GrowthAreas(b);
    }
  }

  /** No entry is both a strength and a growth area, so the two lists
      together hold at most one item per entry. */
  lemma {:induction false} AdviceCount(ds: seq<DimensionScore>)
    ensures |Strengths(ds)| + |GrowthAreas(ds)| <= |ds|
  {
    if ds != [] {
      AdviceCount(ds[1..]);
      AdviceBands(ds[0]);
    }
  }

  /** A strength is exactly "Strong " and the readable name of an entry
      scoring 70 or more. */
  lemma {:induction false} StrengthsIff(ds: seq<DimensionScore>, x: string)
    ensures x in Strengths(ds) <==>
              exists i :: 0 <= i < |ds| && ds[i].score >= 70.0 && x == "Strong " + HumanName(ds[i].dimension)
  {
    if ds != [] {
      StrengthsIff(ds[1..], x);
      if x in Strengths(ds) {
        if x in StrengthOf(ds[0]) {
          assert ds[0].score >= 70.0 && x == "Strong " + HumanName(ds[0].dimension);
        } else {
          var i :| 0 <= i < |ds[1..]| && ds[1..][i].score >= 70.0 && x == "Strong " + HumanName(ds[1..][i].dimension);
          assert ds[1..][i] == ds[i + 1];
        }
      }
      if exists i :: 0 <= i < |ds| && ds[i].score >= 70.0 && x == "Strong " + HumanName(ds[i].dimension) {
        var i :| 0 <= i < |ds| && ds[i].score >= 70.0 && x == "Strong " + HumanName(ds[i].dimension);
        if i > 0 {
          assert ds[1..][i - 1] == ds[i];
        }
      }
    }
  }

  /** A growth area is exactly the readable name of an entry scoring below
      50, followed by " development". */
  lemma {:induction false} GrowthIff(ds: seq<DimensionScore>, x: string)
    ensures x in GrowthAreas(ds) <==>
              exists i :: 0 <= i < |ds| && ds[i].score < 50.0 && x == HumanName(ds[i].dimension) + " development"
  {
    if ds != [] {
      GrowthIff(ds[1..], x);
      if x in GrowthAreas(ds) {
        if x in GrowthOf(ds[0]) {
          assert ds[0].score < 50.0 && x == HumanName(ds[0].dimension) + " development";
        } else {
          var i :| 0 <= i < |ds[1..]| && ds[1..][i].score < 50.0 && x == HumanName(ds[1..][i].dimension) + " development";
          assert ds[1..][i] == ds[i + 1];
        }
      }
      if exists i :: 0 <= i < |ds| && ds[i].score < 50.0 && x == HumanName(ds[i].dimension) + " development" {
        var i :| 0 <= i < |ds| && ds[i].score < 50.0 && x == HumanName(ds[i].dimension) + " development";
        if i > 0 {
          assert ds[1..][i - 1] == ds[i];
        }
      }
    }
  }

  // ---------------------------------------------------------------------
  // Lowest dimension and recommendations
  // ---------------------------------------------------------------------

  /** Position k holds a minimum score, and no earlier position ties it. */
  predicate FirstMinimum(ds: seq<DimensionScore>, k: nat)
  {
    && k < |ds|
    && (forall j :: 0 <= j < |ds| ==> ds[k].score <= ds[j].score)
    && (forall j :: 0 <= j < k ==> ds[j].score > ds[k].score)
  }

  /** The fold lands on the first minimum: ties keep the earlier entry. */
  lemma {:induction false} LowestIndexIsFirstMinimum(ds: seq<DimensionScore>)
    requires |ds| > 0
    ensures FirstMinimum(ds, LowestIndex(ds))
  {
    if |ds| > 1 {
      var pre := ds[..|ds| - 1];
      LowestIndexIsFirstMinimum(pre);
      assert forall j :: 0 <= j < |pre| ==> pre[j] == ds[j];
    }
  }

  /** A list has at most one first minimum. */
  lemma FirstMinimumUnique(ds: seq<DimensionScore>, k1: nat, k2: nat)
    requires FirstMinimum(ds, k1) && FirstMinimum(ds, k2)
    ensures k1 == k2
  {
    assert ds[k1].score <= ds[k2].score && ds[k2].score <= ds[k1].score;
  }

  /** The two tip lists differ from each other and from no advice. */
  lemma TipsDistinct()
    ensures RegulationTips != AwarenessTips
    ensures RegulationTips != [] && AwarenessTips != []
  {
    assert |RegulationTips[0]| != |AwarenessTips[0]|;
  }

  /** In a results list, self-regulation tips come exactly when
      self-regulation is the first minimum, self-awareness tips exactly when
      self-awareness is, and nothing otherwise. */
  lemma RecommendationsOfCore(ds: seq<DimensionScore>)
    requires CoreLayout(ds)
    ensures Recommendations(ds) == RegulationTips <==>
              ds[1].score < ds[0].score && forall j :: 0 <= j < |ds| ==> ds[1].score <= ds[j].score
    ensures Recommendations(ds) == AwarenessTips <==>
              forall j :: 0 <= j < |ds| ==> ds[0].score <= ds[j].score
    ensures Recommendations(ds) == [] <==>
              exists j :: 2 <= j < |ds| && ds[j].score < ds[0].score && ds[j].score < ds[1].score
  {
    var k := LowestIndex(ds);
    LowestIndexIsFirstMinimum(ds);
    TipsDistinct();
    assert ds[k].dimension == CoreDimension(k).Name();
    if k == 0 {
      assert Recommendations(ds) == AwarenessTips;
    } else if k == 1 {
      assert Recommendations(ds) == RegulationTips;
      assert !FirstMinimum(ds, 0);
    } else {
      assert Recommendations(ds) == [];
      assert !FirstMinimum(ds, 0);
      assert !FirstMinimum(ds, 1);
    }
  }

  /** A name with its only hyphen at position i reads with a space there. */
  lemma ReadableAt(name: string, i: nat)
    requires i < |name| && name[i] == '-'
    requires forall j :: 0 <= j < |name| && j != i ==> name[j] != '-'
    ensures HumanName(name) == name[..i] + " " + name[i + 1..]
  {
    var t := HumanName(name);
    var u := name[..i] + " " + name[i + 1..];
    assert '-' !in name[..i];
    forall j | 0 <= j < |name| ensures t[j] == u[j] {
      if j < i {
        assert u[j] == name[j];
      } else if j == i {
        assert u[j] == ' ';
      } else {
        assert u[j] == name[j];
      }
    }
    assert t == u;
  }
}

=== FILE: assessment.dfy ===
/** The records exchanged between the collection flow and the scoring engine
    (src/types/assessment.ts). Timestamps are not part of the model: they are
    carried by the source but never read. */
module Assessment {
  import opened Wrappers
  import opened Labels

  /** `forced-choice` is a declared question type that the flow renders no
      input for. */
  datatype QuestionType = Likert | Scenario | ForcedChoice

  datatype Section = Foundations | Personality | Scenarios | Pearl

  datatype ScenarioOption = ScenarioOption(id: string, score: real)

  /** A catalogue question. Likert questions have no options. The
      `reverseScored` flag is data only: nothing in the engine reads it. */
  datatype Question = Question(
    id: string,
    kind: QuestionType,
    section: Section,
    options: seq<ScenarioOption>,
    reverseScored: bool)

  /** One answer. `value` is the Likert rating or the chosen option's score;
      `confidence` and `selectedOption` are only set by scenario answers. */
  datatype Response = Response(
    questionId: string,
    value: real,
    confidence: Option<real>,
    selectedOption: Option<string>)

  /** One entry of the results list. The source field `label` is `band`
      here (`label` is a Dafny keyword). The source stores the
      interpretation sentence alongside; it is a function of the name and the
      score alone, so here it is a derived member. */
  datatype DimensionScore = DimensionScore(
    dimension: string,
    score: real,
    band: Label)
  {
    function Interpretation(): string
    {
      ScoreInterpretation(dimension, score)
    }
  }

  datatype PearlScores = PearlScores(
    presence: real,
    empathy: real,
    affectRegulation: real,
    relationalAgility: real,
    leadershipMindset: real)

  /** The four respondent profiles. */
  datatype Profile = ResilientOperator | EmpathicStabilizer | WatcherRegulator | ReactiveLearner {

    /** The profile as the source spells it. */
    function Text(): string
    {
      match this
      case ResilientOperator => "Resilient Operator"
      case EmpathicStabilizer => "Empathic Stabilizer"
      case WatcherRegulator => "Watcher & Regulator"
      case ReactiveLearner => "Reactive Learner"
    }
  }

  datatype Results = Results(
    overallScore: real,
    dimensionScores: seq<DimensionScore>,
    profileLabel: Profile,
    strengths: seq<string>,
    growthAreas: seq<string>,
    recommendations: seq<string>,
    pearlScores: PearlScores)
}

=== FILE: flow.dfy ===
/** The question-by-question collection flow (src/components/AssessmentFlow.tsx),
    without its rendering. The component's state is a question index and the
    list of responses; every handler becomes a function from one state to the
    next. The two callbacks the page passes in (`onComplete`, `onBack`) become
    the effect tag of a step, and the timestamp of a response is not modelled. */
module Flow {
  import opened Wrappers
  import opened Assessment

  /** The four question lists. The flow presents them in this order. */
  datatype Catalogue = Catalogue(
    foundations: seq<Question>,
    personality: seq<Question>,
    scenarios: seq<Question>,
    pearl: seq<Question>)
  {
    /** Every question, in presentation order. */
    function All(): seq<Question>
    {
      foundations + personality + scenarios + pearl
    }

    /** The list a section's progress is measured against. */
    function Of(section: Section): seq<Question>
    {
      match section
      case Foundations => foundations
      case Personality => personality
      case Scenarios => scenarios
      case Pearl => pearl
    }
  }

  /** The component state: which question is on screen, and the answers so far. */
  datatype State = State(index: nat, responses: seq<Response>)

  /** What a step asks of the surrounding page: nothing, to hand over the
      responses for scoring, or to return to the introduction. */
  datatype Effect = Quiet | Complete(submitted: seq<Response>) | Back

  datatype Step = Step(state: State, effect: Effect)

  /** The user actions the screen offers. */
  datatype Event =
    | Next
    | Previous
    | Rate(rating: real)
    | Choose(optionId: string)
    | SetConfidence(confidence: real)

  /** The index points at a question. The source reads the current question's
      id on every render, so it fails outright on an empty catalogue. */
  predicate Valid(cat: Catalogue, s: State)
  {
    s.index < |cat.All()|
  }

  function Current(cat: Catalogue, s: State): Question
    requires Valid(cat, s)
  {
    cat.All()[s.index]
  }

  // ---------------------------------------------------------------------
  // Looking up responses and options
  // ---------------------------------------------------------------------

  /** Position of the first response to `id`, or |rs| when there is none. */
  function FirstResponse(rs: seq<Response>, id: string): (k: nat)
    ensures k <= |rs|
    ensures k < |rs| ==> rs[k].questionId == id
    ensures forall j :: 0 <= j < k ==> rs[j].questionId != id
  {
    if rs == [] then 0
    else if rs[0].questionId == id then 0
    else 1 + FirstResponse(rs[1..], id)
  }

  /** The first response to `id`, as `responses.find` returns it. */
  function FindResponse(rs: seq<Response>, id: string): (found: Option<Response>)
    ensures found.None? <==> forall i :: 0 <= i < |rs| ==> rs[i].questionId != id
    ensures found.Some? ==> found.value in rs && found.value.questionId == id
    ensures found.Some? ==> exists k :: 0 <= k < |rs| && found.value == rs[k]
                              && forall j :: 0 <= j < k ==> rs[j].questionId != id
  {
    var k := FirstResponse(rs, id);
    if k < |rs| then Some(rs[k]) else None
  }

  /** Position of the first option with the given id, or |opts| when there is none. */
  function FirstOption(opts: seq<ScenarioOption>, id: string): (k: nat)
    ensures k <= |opts|
    ensures k < |opts| ==> opts[k].id == id
    ensures forall j :: 0 <= j < k ==> opts[j].id != id
  {
    if opts == [] then 0
    else if opts[0].id == id then 0
    else 1 + FirstOption(opts[1..], id)
  }

  /** The first option with the given id, as `options.find` returns it. */
  function FindOption(opts: seq<ScenarioOption>, id: string): (found: Option<ScenarioOption>)
    ensures found.None? <==> forall i :: 0 <= i < |opts| ==> opts[i].id != id
    ensures found.Some? ==> found.value in opts && found.value.id == id
    ensures found.Some? ==> exists k :: 0 <= k < |opts| && found.value == opts[k]
                              && forall j :: 0 <= j < k ==> opts[j].id != id
  {
    var k := FirstOption(opts, id);
    if k < |opts| then Some(opts[k]) else None
  }

  // ---------------------------------------------------------------------
  // Recording an answer
  // ---------------------------------------------------------------------

  /** The responses to other questions, in their order. */
  function Without(rs: seq<Response>, id: string): (kept: seq<Response>)
    ensures |kept| <= |rs|
    ensures forall r :: r in kept <==> r in rs && r.questionId != id
  {
    if rs == [] then []
    else if rs[0].questionId == id then Without(rs[1..], id)
    else [rs[0]] + Without(rs[1..], id)
  }

  /** `after` holds `answer` as the only response to its question, and the
      same responses to every other question as `before`. */
  predicate Records(before: seq<Response>, after: seq<Response>, answer: Response)
  {
    && answer in after
    && (forall r :: r in after && r.questionId == answer.questionId ==> r == answer)
    && (forall r :: r in after && r.questionId != answer.questionId ==> r in before)
    && (forall r :: r in before && r.questionId != answer.questionId ==> r in after)
  }

  /** Records the answer to question `id`: every earlier response to it is
      dropped and the new one goes last. */
  function UpdateResponse(
    rs: seq<Response>, id: string, value: real,
    confidence: Option<real>, selected: Option<string>): (updated: seq<Response>)
    ensures |updated| > 0 && updated[|updated| - 1] == Response(id, value, confidence, selected)
    ensures forall i :: 0 <= i < |updated| - 1 ==> updated[i].questionId != id
    ensures forall r :: r in rs && r.questionId != id ==> r in updated
    ensures forall r :: r in updated && r.questionId != id ==> r in rs
    ensures Records(rs, updated, Response(id, value, confidence, selected))
  {
    Without(rs, id) + [Response(id, value, confidence, selected)]
  }

  /** The confidence an option choice records: the current answer's
      confidence, or 50 when there is none. A confidence of 0 counts as
      none (`||` treats 0 as false). */
  function KeptConfidence(current: Option<Response>): (c: real)
    ensures c == 50.0 || (current.Some? && current.value.confidence == Some(c) && c != 0.0)
    ensures current.Some? && current.value.confidence.Some? && current.value.confidence.value != 0.0
            ==> c == current.value.confidence.value
  {
    match current
    case Some(r) =>
      (match r.confidence
       case Some(c) => if c != 0.0 then c else 50.0
       case None => 50.0)
    case None => 50.0
  }

  /** An option is recorded only when its id is not empty (`&&` treats the
      empty string as false). */
  predicate HasSelection(r: Response)
  {
    r.selectedOption.Some? && r.selectedOption.value != ""
  }

  // ---------------------------------------------------------------------
  // Handlers
  // ---------------------------------------------------------------------

  /** The Likert scale's change handler: the rating alone is recorded. */
  function PickLikert(cat: Catalogue, s: State, rating: real): (next: State)
    requires Valid(cat, s)
    ensures next.index == s.index
    ensures FindResponse(next.responses, Current(cat, s).id)
            == Some(Response(Current(cat, s).id, rating, None, None))
    ensures Records(s.responses, next.responses, Response(Current(cat, s).id, rating, None, None))
  {
    var id := Current(cat, s).id;
    State(s.index, UpdateResponse(s.responses, id, rating, None, None))
  }

  /** The scenario's option handler: an unknown option id changes nothing;
      otherwise the option's score becomes the value, the option id is
      recorded, and the confidence is kept or defaults to 50. */
  function SelectOption(cat: Catalogue, s: State, optionId: string): (next: State)
    requires Valid(cat, s)
    ensures next.index == s.index
    ensures FindOption(Current(cat, s).options, optionId).None? ==> next == s
    ensures FindOption(Current(cat, s).options, optionId).Some? ==>
              var q := Current(cat, s);
              FindResponse(next.responses, q.id)
              == Some(Response(q.id, FindOption(q.options, optionId).value.score,
                               Some(KeptConfidence(FindResponse(s.responses, q.id))),
                               Some(optionId)))
    ensures FindOption(Current(cat, s).options, optionId).Some? ==>
              var q := Current(cat, s);
              Records(s.responses, next.responses,
                      Response(q.id, FindOption(q.options, optionId).value.score,
                               Some(KeptConfidence(FindResponse(s.responses, q.id))),
                               Some(optionId)))
  {
    var q := Current(cat, s);
    match FindOption(q.options, optionId)
    case None => s
    case Some(option) =>
      var c := KeptConfidence(FindResponse(s.responses, q.id));
      State(s.index, UpdateResponse(s.responses, q.id, option.score, Some(c), Some(optionId)))
  }

  /** The scenario's confidence handler: it applies only once an option is
      recorded, and keeps that option and its score. */
  function ChangeConfidence(cat: Catalogue, s: State, confidence: real): (next: State)
    requires Valid(cat, s)
    ensures next.index == s.index
    ensures var found := FindResponse(s.responses, Current(cat, s).id);
            !(found.Some? && HasSelection(found.value)) ==> next == s
    ensures var q := Current(cat, s);
            var found := FindResponse(s.responses, q.id);
            found.Some? && HasSelection(found.value) ==>
              FindResponse(next.responses, q.id)
              == Some(Response(q.id, found.value.value, Some(confidence), found.value.selectedOption))
    ensures var q := Current(cat, s);
            var found := FindResponse(s.responses, q.id);
            found.Some? && HasSelection(found.value) ==>
              Records(s.responses, next.responses,
                      Response(q.id, found.value.value, Some(confidence), found.value.selectedOption))
  {
    var q := Current(cat, s);
    match FindResponse(s.responses, q.id)
    case Some(r) =>
      if HasSelection(r) then
        State(s.index, UpdateResponse(s.responses, q.id, r.value, Some(confidence), r.selectedOption))
      else s
    case None => s
  }

  /** Forward: the next question, or completion on the last one. */
  function HandleNext(cat: Catalogue, s: State): (step: Step)
    requires Valid(cat, s)
    ensures step.state.responses == s.responses
    ensures Valid(cat, step.state)
    ensures step.state.index == s.index + 1 <==> s.index < |cat.All()| - 1
    ensures step.state.index != s.index + 1 ==>
              step.state == s && step.effect == Complete(s.responses)
    ensures step.effect.Quiet? <==> step.state.index == s.index + 1
  {
    if s.index < |cat.All()| - 1 then Step(State(s.index + 1, s.responses), Quiet)
    else Step(s, Complete(s.responses))
  }

  /** Backward: the previous question, or back to the introduction on the first. */
  function HandlePrevious(cat: Catalogue, s: State): (step: Step)
    requires Valid(cat, s)
    ensures step.state.responses == s.responses
    ensures Valid(cat, step.state)
    ensures step.state.index + 1 == s.index <==> s.index > 0
    ensures step.state.index + 1 != s.index ==> step.state == s && step.effect == Back
    ensures step.effect.Quiet? <==> step.state.index + 1 == s.index
  {
    if s.index > 0 then Step(State(s.index - 1, s.responses), Quiet)
    else Step(s, Back)
  }

  /** Whether the Next button is enabled. A scenario needs a recorded option
      and a confidence; any other question needs a response at all (its
      value is always a number). */
  function IsAnswered(cat: Catalogue, s: State): (answered: bool)
    requires Valid(cat, s)
    ensures answered ==> FindResponse(s.responses, Current(cat, s).id).Some?
    ensures var found := FindResponse(s.responses, Current(cat, s).id);
            Current(cat, s).kind == Scenario && found.Some? ==>
              (answered <==> HasSelection(found.value) && found.value.confidence.Some?)
    ensures Current(cat, s).kind != Scenario ==>
              (answered <==> FindResponse(s.responses, Current(cat, s).id).Some?)
  {
    match FindResponse(s.responses, Current(cat, s).id)
    case None => false
    case Some(r) =>
      if Current(cat, s).kind == Scenario then HasSelection(r) && r.confidence.Some?
      else true
  }

  /** One user action. Next is disabled until the question is answered, the
      rating scale is shown for Likert questions only, and the option list
      and confidence slider for scenarios only. */
  function Dispatch(cat: Catalogue, s: State, e: Event): (step: Step)
    requires Valid(cat, s)
    ensures Valid(cat, step.state)
    ensures e.Next? && !IsAnswered(cat, s) ==> step == Step(s, Quiet)
    ensures e.Next? && IsAnswered(cat, s) && s.index < |cat.All()| - 1 ==>
              step == Step(State(s.index + 1, s.responses), Quiet)
    ensures e.Previous? && s.index > 0 ==> step == Step(State(s.index - 1, s.responses), Quiet)
    ensures e.Rate? && Current(cat, s).kind == Likert ==> step.state == PickLikert(cat, s, e.rating)
    ensures e.Choose? && Current(cat, s).kind == Scenario ==> step.state == SelectOption(cat, s, e.optionId)
    ensures e.SetConfidence? && Current(cat, s).kind == Scenario ==>
              step.state == ChangeConfidence(cat, s, e.confidence)
    ensures step.effect.Complete? <==> e.Next? && IsAnswered(cat, s) && s.index == |cat.All()| - 1
    ensures step.effect.Complete? ==> step == Step(s, Complete(s.responses))
    ensures step.effect.Back? <==> e.Previous? && s.index == 0
    ensures !e.Next? && !e.Previous? ==> step.effect.Quiet? && step.state.index == s.index
    ensures || e.Next? || e.Previous?
            || (e.Rate? && Current(cat, s).kind != Likert)
            || ((e.Choose? || e.SetConfidence?) && Current(cat, s).kind != Scenario)
            ==> step.state.responses == s.responses
  {
    var kind := Current(cat, s).kind;
    match e
    case Next => if IsAnswered(cat, s) then HandleNext(cat, s) else Step(s, Quiet)
    case Previous => HandlePrevious(cat, s)
    case Rate(v) => Step(if kind == Likert then PickLikert(cat, s, v) else s, Quiet)
    case Choose(o) => Step(if kind == Scenario then SelectOption(cat, s, o) else s, Quiet)
    case SetConfidence(c) => Step(if kind == Scenario then ChangeConfidence(cat, s, c) else s, Quiet)
  }

  // ---------------------------------------------------------------------
  // Section progress
  // ---------------------------------------------------------------------

  function Ids(qs: seq<Question>): set<string>
  {
    set q | q in qs :: q.id
  }

  /** The responses that answer a question of the list. */
  function AnsweredIn(rs: seq<Response>, qs: seq<Question>): (answered: seq<Response>)
    ensures |answered| <= |rs|
    ensures forall r :: r in answered <==> r in rs && r.questionId in Ids(qs)
  {
    if rs == [] then []
    else if rs[0].questionId in Ids(qs) then [rs[0]] + AnsweredIn(rs[1..], qs)
    else AnsweredIn(rs[1..], qs)
  }

  /** A section counts as completed when as many responses answer it as it
      has questions. */
  predicate SectionDone(rs: seq<Response>, qs: seq<Question>)
  {
    |AnsweredIn(rs, qs)| == |qs|
  }

  function Rank(section: Section): nat
  {
    match section
    case Foundations => 0
    case Personality => 1
    case Scenarios => 2
    case Pearl => 3
  }

  function SectionAt(rank: nat): (section: Section)
    requires rank < 4
    ensures Rank(section) == rank
  {
    match rank
    case 0 => Foundations
    case 1 => Personality
    case 2 => Scenarios
    case _ => Pearl
  }

  /** The completed sections of rank `from` and above, in rank order. */
  function CompletedFrom(cat: Catalogue, rs: seq<Response>, from: nat): (done: seq<Section>)
    requires from <= 4
    ensures forall section :: section in done <==> from <= Rank(section) && SectionDone(rs, cat.Of(section))
    ensures forall i, j :: 0 <= i < j < |done| ==> Rank(done[i]) < Rank(done[j])
    decreases 4 - from
  {
    if from == 4 then []
    else
      var section := SectionAt(from);
      var rest := CompletedFrom(cat, rs, from + 1);
      if SectionDone(rs, cat.Of(section)) then [section] + rest else rest
  }

  datatype Progress = Progress(completed: seq<Section>, current: Section)

  /** The progress bar's input: the completed sections in presentation order,
      and the current question's section. */
  function SectionProgress(cat: Catalogue, s: State): (p: Progress)
    requires Valid(cat, s)
    ensures forall section :: section in p.completed <==> SectionDone(s.responses, cat.Of(section))
    ensures forall i, j :: 0 <= i < j < |p.completed| ==> Rank(p.completed[i]) < Rank(p.completed[j])
    ensures p.current == Current(cat, s).section
  {
    Progress(CompletedFrom(cat, s.responses, 0), Current(cat, s).section)
  }
}

=== FILE: flow_properties.dfy ===
/** Properties of the collection flow: what recording an answer keeps and
    drops, how navigation moves the index, when a question counts as
    answered, what every user action preserves, and what section progress
    means. */
module FlowProperties {
  import opened Wrappers
  import opened Assessment
  import opened Flow
  import Scoring
  import ResultsProperties

  // ---------------------------------------------------------------------
  // Recording an answer
  // ---------------------------------------------------------------------

  /** The responses to question `id`, in order. */
  function Only(rs: seq<Response>, id: string): seq<Response>
  {
    if rs == [] then []
    else (if rs[0].questionId == id then [rs[0]] else []) + Only(rs[1..], id)
  }

  lemma {:induction false} OnlyAppend(a: seq<Response>, b: seq<Response>, id: string)
    ensures Only(a + b, id) == Only(a, id) + Only(b, id)
  {
    if a == [] {
      assert a + b == b;
    } else {
      var head := if a[0].questionId == id then [a[0]] else [];
      assert (a + b)[0] == a[0];
      assert (a + b)[1..] == a[1..] + b;
      OnlyAppend(a[1..], b, id);
      assert Only(a + b, id) == head + (Only(a[1..], id) + Only(b, id));
      assert Only(a, id) == head + Only(a[1..], id);
    }
  }

  lemma {:induction false} WithoutOnly(rs: seq<Response>, id: string, x: string)
    ensures Only(Without(rs, id), x) == if x == id then [] else Only(rs, x)
  {
    if rs != [] {
      WithoutOnly(rs[1..], id, x);
      if rs[0].questionId != id {
        OnlyAppend([rs[0]], Without(rs[1..], id), x);
      }
    }
  }

  /** After an update exactly one response carries the question's id (the new
      one), and the responses to every other question are what they were, in
      the same order. */
  lemma UpdateOnly(rs: seq<Response>, id: string, value: real,
                   confidence: Option<real>, selected: Option<string>, x: string)
    ensures Only(UpdateResponse(rs, id, value, confidence, selected), id)
            == [Response(id, value, confidence, selected)]
    ensures x != id ==> Only(UpdateResponse(rs, id, value, confidence, selected), x) == Only(rs, x)
  {
    var answer := Response(id, value, confidence, selected);
    OnlyAppend(Without(rs, id), [answer], id);
    OnlyAppend(Without(rs, id), [answer], x);
    WithoutOnly(rs, id, id);
    WithoutOnly(rs, id, x);
  }

  /** `a` is `b` with some elements left out. */
  predicate SubsequenceOf(a: seq<Response>, b: seq<Response>)
    decreases |b|
  {
    if a == [] then true
    else if b == [] then false
    else (a[0] == b[0] && SubsequenceOf(a[1..], b[1..])) || SubsequenceOf(a, b[1..])
  }

  lemma {:induction false} WithoutSubsequence(rs: seq<Response>, id: string)
    ensures SubsequenceOf(Without(rs, id), rs)
  {
    if rs != [] {
      WithoutSubsequence(rs[1..], id);
      if rs[0].questionId != id {
        assert Without(rs, id)[1..] == Without(rs[1..], id);
      }
    }
  }

  /** The responses an update keeps come in their original order. */
  lemma UpdateKeepsOrder(rs: seq<Response>, id: string, value: real,
                         confidence: Option<real>, selected: Option<string>)
    ensures var updated := UpdateResponse(rs, id, value, confidence, selected);
            SubsequenceOf(updated[..|updated| - 1], rs)
  {
    var updated := UpdateResponse(rs, id, value, confidence, selected);
    assert updated[..|updated| - 1] == Without(rs, id);
    WithoutSubsequence(rs, id);
  }

  /** No two responses answer the same question. */
  predicate Unique(rs: seq<Response>)
  {
    forall i, j :: 0 <= i < j < |rs| ==> rs[i].questionId != rs[j].questionId
  }

  lemma {:induction false} SubsequenceMembers(a: seq<Response>, b: seq<Response>)
    requires SubsequenceOf(a, b)
    ensures forall r :: r in a ==> r in b
    decreases |b|
  {
    if a != [] {
      if a[0] == b[0] && SubsequenceOf(a[1..], b[1..]) {
        SubsequenceMembers(a[1..], b[1..]);
        forall r | r in a ensures r in b {
          if r != a[0] {
            assert r in a[1..];
          }
        }
      } else {
        SubsequenceMembers(a, b[1..]);
      }
    }
  }

  lemma {:induction false} SubsequenceUnique(a: seq<Response>, b: seq<Response>)
    requires SubsequenceOf(a, b) && Unique(b)
    ensures Unique(a)
    decreases |b|
  {
    if a != [] {
      assert Unique(b[1..]) by {
        forall i, j | 0 <= i < j < |b[1..]| ensures b[1..][i].questionId != b[1..][j].questionId {
          assert b[1..][i] == b[i + 1] && b[1..][j] == b[j + 1];
        }
      }
      if a[0] == b[0] && SubsequenceOf(a[1..], b[1..]) {
        SubsequenceUnique(a[1..], b[1..]);
        SubsequenceMembers(a[1..], b[1..]);
        forall i, j | 0 <= i < j < |a| ensures a[i].questionId != a[j].questionId {
          if i == 0 {
            assert a[j] in b[1..] by { assert a[j] == a[1..][j - 1]; }
            var k :| 0 <= k < |b[1..]| && b[1..][k] == a[j];
            assert b[k + 1] == a[j];
          } else {
            assert a[i] == a[1..][i - 1] && a[j] == a[1..][j - 1];
          }
        }
      } else {
        SubsequenceUnique(a, b[1..]);
      }
    }
  }

  /** An update keeps the responses free of duplicates. */
  lemma UpdateUnique(rs: seq<Response>, id: string, value: real,
                     confidence: Option<real>, selected: Option<string>)
    requires Unique(rs)
    ensures Unique(UpdateResponse(rs, id, value, confidence, selected))
  {
    WithoutSubsequence(rs, id);
    SubsequenceUnique(Without(rs, id), rs);
  }

  // ---------------------------------------------------------------------
  // Navigation
  // ---------------------------------------------------------------------

  /** Previous undoes Next away from the last question. */
  lemma NextThenPrevious(cat: Catalogue, s: State)
    requires Valid(cat, s) && s.index < |cat.All()| - 1
    ensures var forward := HandleNext(cat, s).state;
            forward.index == s.index + 1 && HandlePrevious(cat, forward) == Step(s, Quiet)
  {
  }

  /** Next undoes Previous away from the first question. */
  lemma PreviousThenNext(cat: Catalogue, s: State)
    requires Valid(cat, s) && s.index > 0
    ensures var back := HandlePrevious(cat, s).state;
            back.index + 1 == s.index && HandleNext(cat, back) == Step(s, Quiet)
  {
  }

  // ---------------------------------------------------------------------
  // Answering
  // ---------------------------------------------------------------------

  /** A rating answers any question that is not a scenario. */
  lemma RatingAnswers(cat: Catalogue, s: State, rating: real)
    requires Valid(cat, s) && Current(cat, s).kind != Scenario
    ensures IsAnswered(cat, PickLikert(cat, s, rating))
  {
  }

  /** Choosing an option with a non-empty id answers a scenario, and an
      unknown option id leaves it as it was. */
  lemma ChoiceAnswers(cat: Catalogue, s: State, optionId: string)
    requires Valid(cat, s) && Current(cat, s).kind == Scenario
    ensures FindOption(Current(cat, s).options, optionId).Some? && optionId != ""
            ==> IsAnswered(cat, SelectOption(cat, s, optionId))
    ensures FindOption(Current(cat, s).options, optionId).None?
            ==> IsAnswered(cat, SelectOption(cat, s, optionId)) == IsAnswered(cat, s)
  {
  }

  /** Moving the confidence slider never un-answers a question. */
  lemma ConfidenceKeepsAnswer(cat: Catalogue, s: State, confidence: real)
    requires Valid(cat, s) && IsAnswered(cat, s)
    ensures IsAnswered(cat, ChangeConfidence(cat, s, confidence))
  {
  }

  /** A confidence of 0 does not survive choosing another option: it comes
      back as 50. */
  lemma ZeroConfidenceResets(cat: Catalogue, s: State, optionId: string)
    requires Valid(cat, s)
    requires FindOption(Current(cat, s).options, optionId).Some?
    requires var found := FindResponse(s.responses, Current(cat, s).id);
             found.Some? && found.value.confidence == Some(0.0)
    ensures FindResponse(SelectOption(cat, s, optionId).responses, Current(cat, s).id).value.confidence
            == Some(50.0)
  {
  }

  // ---------------------------------------------------------------------
  // What every action keeps
  // ---------------------------------------------------------------------

  /** The flow's invariant: the index points at a question, no question has
      two responses, and every response answers a catalogue question. */
  predicate Inv(cat: Catalogue, s: State)
  {
    && Valid(cat, s)
    && Unique(s.responses)
    && forall i :: 0 <= i < |s.responses| ==> s.responses[i].questionId in Ids(cat.All())
  }

  lemma UpdateInv(cat: Catalogue, s: State, value: real,
                  confidence: Option<real>, selected: Option<string>)
    requires Inv(cat, s)
    ensures Inv(cat, State(s.index, UpdateResponse(s.responses, Current(cat, s).id, value, confidence, selected)))
  {
    var id := Current(cat, s).id;
    var updated := UpdateResponse(s.responses, id, value, confidence, selected);
    UpdateUnique(s.responses, id, value, confidence, selected);
    assert id in Ids(cat.All());
    forall i | 0 <= i < |updated| ensures updated[i].questionId in Ids(cat.All()) {
      if updated[i].questionId != id {
        assert updated[i] in s.responses;
      }
    }
  }

  lemma DispatchPreservesInv(cat: Catalogue, s: State, e: Event)
    requires Inv(cat, s)
    ensures Inv(cat, Dispatch(cat, s, e).state)
  {
    var found := FindResponse(s.responses, Current(cat, s).id);
    match e
    case Next =>
    case Previous =>
    case Rate(v) =>
      UpdateInv(cat, s, v, None, None);
    case Choose(o) =>
      var option := FindOption(Current(cat, s).options, o);
      if option.Some? {
        UpdateInv(cat, s, option.value.score, Some(KeptConfidence(found)), Some(o));
      }
    case SetConfidence(c) =>
      if found.Some? {
        UpdateInv(cat, s, found.value.value, Some(c), found.value.selectedOption);
      }
  }

  /** The component starts on the first question with no answers; for any
      catalogue with a question, that state satisfies the invariant. */
  lemma InitInv(cat: Catalogue)
    requires |cat.All()| > 0
    ensures Inv(cat, State(0, []))
  {
  }

  /** No user action touches the responses to a question other than the
      current one: they stay as they were, in order. A rating on a Likert
      question and a known option on a scenario leave exactly one response
      to the current question, the one just recorded. */
  lemma DispatchOnly(cat: Catalogue, s: State, e: Event, x: string)
    requires Valid(cat, s)
    ensures x != Current(cat, s).id ==>
              Only(Dispatch(cat, s, e).state.responses, x) == Only(s.responses, x)
    ensures var q := Current(cat, s);
            e.Rate? && q.kind == Likert ==>
              Only(Dispatch(cat, s, e).state.responses, q.id) == [Response(q.id, e.rating, None, None)]
    ensures var q := Current(cat, s);
            e.Choose? && q.kind == Scenario && FindOption(q.options, e.optionId).Some? ==>
              Only(Dispatch(cat, s, e).state.responses, q.id)
              == [Response(q.id, FindOption(q.options, e.optionId).value.score,
                           Some(KeptConfidence(FindResponse(s.responses, q.id))), Some(e.optionId))]
  {
    var q := Current(cat, s);
    var found := FindResponse(s.responses, q.id);
    match e
    case Next =>
    case Previous =>
    case Rate(v) =>
      UpdateOnly(s.responses, q.id, v, None, None, x);
    case Choose(o) =>
      var option := FindOption(q.options, o);
      if option.Some? {
        UpdateOnly(s.responses, q.id, option.value.score, Some(KeptConfidence(found)), Some(o), x);
      }
    case SetConfidence(c) =>
      if found.Some? {
        UpdateOnly(s.responses, q.id, found.value.value, Some(c), found.value.selectedOption, x);
      }
  }

  /** The responses are handed over only by Next on the answered last
      question, and they are handed over as they stand. */
  lemma CompleteOnlyAtEnd(cat: Catalogue, s: State, e: Event)
    requires Valid(cat, s)
    ensures Dispatch(cat, s, e).effect.Complete? <==>
              e == Next && IsAnswered(cat, s) && s.index == |cat.All()| - 1
    ensures Dispatch(cat, s, e).effect.Complete? ==>
              Dispatch(cat, s, e) == Step(s, Complete(s.responses))
  {
  }

  /** The page goes back to the introduction only from the first question. */
  lemma BackOnlyAtStart(cat: Catalogue, s: State, e: Event)
    requires Valid(cat, s)
    ensures Dispatch(cat, s, e).effect.Back? <==> e == Previous && s.index == 0
  {
  }

  /** Every option of the catalogue scores between 1 and 5. */
  predicate OptionsInScale(cat: Catalogue)
  {
    forall q, o :: q in cat.All() && o in q.options ==> 1.0 <= o.score <= 5.0
  }

  lemma UpdateInScale(rs: seq<Response>, id: string, value: real,
                      confidence: Option<real>, selected: Option<string>)
    requires Scoring.InScale(rs) && 1.0 <= value <= 5.0
    ensures Scoring.InScale(UpdateResponse(rs, id, value, confidence, selected))
  {
    var updated := UpdateResponse(rs, id, value, confidence, selected);
    forall i | 0 <= i < |updated| ensures 1.0 <= updated[i].value <= 5.0 {
      if i < |updated| - 1 {
        assert updated[i] in rs;
      }
    }
  }

  /** With ratings from the 1 to 5 scale and options scored within it, every
      recorded value stays on the scale. */
  lemma DispatchKeepsScale(cat: Catalogue, s: State, e: Event)
    requires Valid(cat, s) && OptionsInScale(cat) && Scoring.InScale(s.responses)
    requires e.Rate? ==> 1.0 <= e.rating <= 5.0
    ensures Scoring.InScale(Dispatch(cat, s, e).state.responses)
  {
    var q := Current(cat, s);
    var found := FindResponse(s.responses, q.id);
    match e
    case Next =>
    case Previous =>
    case Rate(v) =>
      UpdateInScale(s.responses, q.id, v, None, None);
    case Choose(o) =>
      var option := FindOption(q.options, o);
      if option.Some? {
        UpdateInScale(s.responses, q.id, option.value.score, Some(KeptConfidence(found)), Some(o));
      }
    case SetConfidence(c) =>
      if found.Some? {
        UpdateInScale(s.responses, q.id, found.value.value, Some(c), found.value.selectedOption);
      }
  }

  /** Responses handed over by a flow that kept to the scale score every
      dimension, the overall score and the PEARL scores between 0 and 100. */
  lemma SubmittedResultsInRange(cat: Catalogue, s: State, e: Event)
    requires Valid(cat, s) && Scoring.InScale(s.responses)
    requires Dispatch(cat, s, e).effect.Complete?
    ensures var res := Scoring.CalculateResults(Dispatch(cat, s, e).effect.submitted);
            && (forall k :: 0 <= k < |res.dimensionScores| ==> 0.0 <= res.dimensionScores[k].score <= 100.0)
            && 0.0 <= res.overallScore <= 100.0
            && 0.0 <= res.pearlScores.presence <= 100.0
            && 0.0 <= res.pearlScores.empathy <= 100.0
            && 0.0 <= res.pearlScores.affectRegulation <= 100.0
            && 0.0 <= res.pearlScores.relationalAgility <= 100.0
            && 0.0 <= res.pearlScores.leadershipMindset <= 100.0
  {
    CompleteOnlyAtEnd(cat, s, e);
    ResultsProperties.ResultsInRange(s.responses);
  }

  // ---------------------------------------------------------------------
  // Section progress
  // ---------------------------------------------------------------------

  function ResponseIds(rs: seq<Response>): set<string>
  {
    set r | r in rs :: r.questionId
  }

  /** No two catalogue questions share an id. */
  predicate DistinctIds(qs: seq<Question>)
  {
    forall i, j :: 0 <= i < j < |qs| ==> qs[i].id != qs[j].id
  }

  lemma ResponseIdsCons(rs: seq<Response>)
    requires rs != []
    ensures ResponseIds(rs) == {rs[0].questionId} + ResponseIds(rs[1..])
  {
    assert rs == [rs[0]] + rs[1..];
  }

  lemma UniqueTail(rs: seq<Response>)
    requires rs != [] && Unique(rs)
    ensures Unique(rs[1..])
    ensures rs[0].questionId !in ResponseIds(rs[1..])
  {
    forall i, j | 0 <= i < j < |rs[1..]| ensures rs[1..][i].questionId != rs[1..][j].questionId {
      assert rs[1..][i] == rs[i + 1];
    }
    forall r | r in rs[1..] ensures r.questionId != rs[0].questionId {
      var k :| 0 <= k < |rs[1..]| && rs[1..][k] == r;
      assert rs[k + 1] == r;
    }
  }

  lemma {:induction false} UniqueCount(rs: seq<Response>)
    requires Unique(rs)
    ensures |ResponseIds(rs)| == |rs|
  {
    if rs != [] {
      UniqueTail(rs);
      UniqueCount(rs[1..]);
      ResponseIdsCons(rs);
    }
  }

  lemma IdsCons(qs: seq<Question>)
    requires qs != []
    ensures Ids(qs) == {qs[0].id} + Ids(qs[1..])
  {
    assert qs == [qs[0]] + qs[1..];
  }

  lemma DistinctTail(qs: seq<Question>)
    requires qs != [] && DistinctIds(qs)
    ensures DistinctIds(qs[1..])
    ensures qs[0].id !in Ids(qs[1..])
  {
    forall i, j | 0 <= i < j < |qs[1..]| ensures qs[1..][i].id != qs[1..][j].id {
      assert qs[1..][i] == qs[i + 1];
    }
    forall q | q in qs[1..] ensures q.id != qs[0].id {
      var k :| 0 <= k < |qs[1..]| && qs[1..][k] == q;
      assert qs[k + 1] == q;
    }
  }

  lemma {:induction false} DistinctCount(qs: seq<Question>)
    requires DistinctIds(qs)
    ensures |Ids(qs)| == |qs|
  {
    if qs != [] {
      DistinctTail(qs);
      DistinctCount(qs[1..]);
      IdsCons(qs);
    }
  }

  lemma {:induction false} AnsweredInSubsequence(rs: seq<Response>, qs: seq<Question>)
    ensures SubsequenceOf(AnsweredIn(rs, qs), rs)
  {
    if rs != [] {
      AnsweredInSubsequence(rs[1..], qs);
      if rs[0].questionId in Ids(qs) {
        assert AnsweredIn(rs, qs)[1..] == AnsweredIn(rs[1..], qs);
      }
    }
  }

  lemma {:induction false} ProperSubsetCount(a: set<string>, b: set<string>)
    requires a < b
    ensures |a| < |b|
  {
    var x :| x in b && x !in a;
    assert a <= b - {x};
    SubsetCount(a, b - {x});
  }

  lemma {:induction false} SubsetCount(a: set<string>, b: set<string>)
    requires a <= b
    ensures |a| <= |b|
    decreases |b|
  {
    if a != {} {
      var x :| x in a;
      SubsetCount(a - {x}, b - {x});
    }
  }

  /** The questions a section's responses answer are the answered questions
      of the section. */
  lemma AnsweredIds(rs: seq<Response>, qs: seq<Question>)
    ensures ResponseIds(AnsweredIn(rs, qs)) == ResponseIds(rs) * Ids(qs)
  {
    var answered := AnsweredIn(rs, qs);
    forall x ensures x in ResponseIds(answered) <==> x in ResponseIds(rs) * Ids(qs) {
      if x in ResponseIds(rs) * Ids(qs) {
        var r :| r in rs && r.questionId == x;
        assert r in answered;
      }
    }
  }

  /** With no duplicate responses and no duplicate question ids, a section
      counts as completed exactly when each of its questions has a response. */
  lemma SectionDoneIff(rs: seq<Response>, qs: seq<Question>)
    requires Unique(rs) && DistinctIds(qs)
    ensures SectionDone(rs, qs) <==> forall q :: q in qs ==> FindResponse(rs, q.id).Some?
  {
    var answered := AnsweredIn(rs, qs);
    AnsweredInSubsequence(rs, qs);
    SubsequenceUnique(answered, rs);
    UniqueCount(answered);
    DistinctCount(qs);
    var common := ResponseIds(rs) * Ids(qs);
    AnsweredIds(rs, qs);
    if forall q :: q in qs ==> FindResponse(rs, q.id).Some? {
      assert common == Ids(qs) by {
        forall x | x in Ids(qs) ensures x in ResponseIds(rs) {
          var q :| q in qs && q.id == x;
          assert FindResponse(rs, q.id).value in rs;
        }
      }
    } else {
      var q :| q in qs && FindResponse(rs, q.id).None?;
      assert q.id !in common;
      ProperSubsetCount(common, Ids(qs));
    }
  }

  /** Under the flow's invariant, the progress bar marks a section completed
      exactly when every question of it has a response. */
  lemma ProgressMeansAnswered(cat: Catalogue, s: State, section: Section)
    requires Inv(cat, s) && DistinctIds(cat.Of(section))
    ensures section in SectionProgress(cat, s).completed
            <==> forall q :: q in cat.Of(section) ==> FindResponse(s.responses, q.id).Some?
  {
    SectionDoneIff(s.responses, cat.Of(section));
  }
}

=== FILE: labels.dfy ===
/** The interpreter of src/utils/scoring.ts: the band a 0..100 score falls
    in and the sentence that interprets it. */
module Labels {
  import opened Wrappers
  import Text

  /** The five score bands, lowest first. */
  datatype Label = VeryLow | Low | Moderate | High | VeryHigh {

    /** Position of the band, so that bands can be compared. */
    function Rank(): nat
    {
      match this
      case VeryLow => 0
      case Low => 1
      case Moderate => 2
      case High => 3
      case VeryHigh => 4
    }

    /** The label as the source spells it. */
    function Text(): string
    {
      match this
      case VeryLow => "Very Low"
      case Low => "Low"
      case Moderate => "Moderate"
      case High => "High"
      case VeryHigh => "Very High"
    }
  }

  /** The band of a score; each band is closed at its lower bound. */
  function ScoreLabel(score: real): (band: Label)
    ensures band == VeryHigh <==> 81.0 <= score
    ensures band == High <==> 61.0 <= score < 81.0
    ensures band == Moderate <==> 41.0 <= score < 61.0
    ensures band == Low <==> 21.0 <= score < 41.0
    ensures band == VeryLow <==> score < 21.0
  {
    if score >= 81.0 then VeryHigh
    else if score >= 61.0 then High
    else if score >= 41.0 then Moderate
    else if score >= 21.0 then Low
    else VeryLow
  }

  /** The dimensions that have curated interpretation text. */
  const CuratedDimensions: set<string> := {"self-awareness", "self-regulation"}

  /** Curated self-awareness sentence by band, without its leading "You ". */
  function AwarenessClause(band: Label): string
  {
    match band
    case VeryHigh => "have excellent awareness of your emotions and stress responses, able to identify feelings precisely even under pressure."
    case High => "generally notice your emotional states and stress signals, with good self-monitoring abilities."
    case Moderate => "sometimes notice your emotional states under stress, but may miss early warning signs or mislabel them."
    case Low => "have difficulty identifying your emotions under stress, often unaware of how pressure affects you."
    case VeryLow => "rarely notice emotional states or stress responses, often surprised by your reactions."
  }

  /** Curated self-regulation sentence by band, without its leading "You ". */
  function RegulationClause(band: Label): string
  {
    match band
    case VeryHigh => "consistently manage impulses and remain calm under pressure, with excellent emotional control strategies."
    case High => "are often able to manage your impulses and remain calm when under stress, though pressure sometimes overwhelms."
    case Moderate => "have some ability to regulate emotions under stress, but consistency varies with situation intensity."
    case Low => "frequently struggle to control reactions under stress, often responding impulsively or emotionally."
    case VeryLow => "typically react impulsively under stress with limited emotional regulation strategies."
  }

  /** The curated interpretation table, keyed by dimension and band. Every
      curated sentence addresses the respondent, starting with "You ". */
  function CuratedInterpretation(dimension: string, band: Label): (text: Option<string>)
    ensures text.Some? <==> dimension in CuratedDimensions
    ensures text.Some? ==> |text.value| > 0
  {
    if dimension == "self-awareness" then Some("You " + AwarenessClause(band))
    else if dimension == "self-regulation" then Some("You " + RegulationClause(band))
    else None
  }

  /** The templated sentence used when no curated text exists. */
  function FallbackInterpretation(dimension: string, band: Label): string
  {
    "Your " + dimension + " score is " + Text.ToLower(band.Text()) + "."
  }

  /** The interpretation sentence: curated text when there is a non-empty
      entry for the dimension and band, else the templated fallback. */
  function ScoreInterpretation(dimension: string, score: real): (text: string)
    ensures |text| > 0
    ensures dimension in CuratedDimensions ==>
              text == CuratedInterpretation(dimension, ScoreLabel(score)).value
    ensures dimension !in CuratedDimensions ==>
              text == FallbackInterpretation(dimension, ScoreLabel(score))
  {
    var band := ScoreLabel(score);
    var curated := CuratedInterpretation(dimension, band);
    if curated.Some? && curated.value != "" then curated.value
    else FallbackInterpretation(dimension, band)
  }
}

=== FILE: labels_properties.dfy ===
/** Properties of the score bands and the interpretation sentences. */
module LabelProperties {
  import opened Wrappers
  import opened Labels
  import Text

  /** A higher score never gets a lower band. */
  lemma LabelMonotone(s1: real, s2: real)
    requires s1 <= s2
    ensures ScoreLabel(s1).Rank() <= ScoreLabel(s2).Rank()
  {
  }

  /** The band edges: each band includes its lower bound. */
  lemma LabelBoundaries()
    ensures ScoreLabel(81.0) == VeryHigh && ScoreLabel(80.0) == High
    ensures ScoreLabel(61.0) == High && ScoreLabel(60.0) == Moderate
    ensures ScoreLabel(41.0) == Moderate && ScoreLabel(40.0) == Low
    ensures ScoreLabel(21.0) == Low && ScoreLabel(20.0) == VeryLow
    ensures ScoreLabel(0.0) == VeryLow && ScoreLabel(100.0) == VeryHigh
  {
  }

  /** Only self-awareness and self-regulation have curated text; every other
      dimension, known or not, gets the templated sentence; the result is
      never empty. */
  lemma InterpretationText(dimension: string, score: real)
    ensures |ScoreInterpretation(dimension, score)| > 0
    ensures dimension in CuratedDimensions ==>
              CuratedInterpretation(dimension, ScoreLabel(score)) == Some(ScoreInterpretation(dimension, score))
    ensures dimension !in CuratedDimensions ==>
              ScoreInterpretation(dimension, score)
                == "Your " + dimension + " score is " + Text.ToLower(ScoreLabel(score).Text()) + "."
  {
  }

  /** The lower-cased band names used by the templated sentence. */
  lemma LowerCaseLabels()
    ensures Text.ToLower(VeryHigh.Text()) == "very high"
    ensures Text.ToLower(High.Text()) == "high"
    ensures Text.ToLower(Moderate.Text()) == "moderate"
    ensures Text.ToLower(Low.Text()) == "low"
    ensures Text.ToLower(VeryLow.Text()) == "very low"
  {
  }
}

=== FILE: questions.dfy ===
/** The shipped question catalogue (src/data/questions.ts), reduced to what
    the flow and the engine read: ids, kinds, sections, the reverse-scored
    flag, and each scenario option's id and score. Question wording is not
    modelled. */
module Questions {
  import opened Assessment
  import Flow
  import FlowProperties
  import Scoring
  import ResultsProperties

  const FoundationIds: seq<string> := ["f1", "f2", "f3", "f4", "f5", "f6", "f8", "f9", "f11"]
  const PersonalityIds: seq<string> := ["p1", "p2", "p3", "p4", "p5", "p6"]
  const ScenarioIds: seq<string> := ["s1", "s2", "s3"]
  const PearlIds: seq<string> := ["pearl1", "pearl2", "pearl3", "pearl4", "pearl5"]

  /** The questions flagged `reverseScored` (a flag nothing reads). */
  const ReverseScored: set<string> := {"f8", "f9", "p1", "p5"}

  /** Option ids and scores of the three scenarios, in catalogue order. */
  const OptionIds: seq<seq<string>> :=
    [["s1a", "s1b", "s1c", "s1d"], ["s2a", "s2b", "s2c", "s2d"], ["s3a", "s3b", "s3c", "s3d"]]
  const OptionScores: seq<seq<real>> :=
    [[2.0, 5.0, 1.0, 4.0], [1.0, 5.0, 1.0, 2.0], [1.0, 5.0, 2.0, 1.0]]

  function LikertQuestions(ids: seq<string>, section: Section): (qs: seq<Question>)
    ensures |qs| == |ids|
    ensures forall i :: 0 <= i < |qs| ==>
              qs[i] == Question(ids[i], Likert, section, [], ids[i] in ReverseScored)
  {
    seq(|ids|, i requires 0 <= i < |ids| => Question(ids[i], Likert, section, [], ids[i] in ReverseScored))
  }

  function Options(k: nat): (opts: seq<ScenarioOption>)
    requires k < 3
    ensures |opts| == 4
    ensures forall i :: 0 <= i < 4 ==> opts[i] == ScenarioOption(OptionIds[k][i], OptionScores[k][i])
  {
    seq(4, i requires 0 <= i < 4 => ScenarioOption(OptionIds[k][i], OptionScores[k][i]))
  }

  function ScenarioQuestions(): (qs: seq<Question>)
    ensures |qs| == 3
    ensures forall k :: 0 <= k < 3 ==> qs[k] == Question(ScenarioIds[k], Scenario, Scenarios, Options(k), false)
  {
    seq(3, k requires 0 <= k < 3 => Question(ScenarioIds[k], Scenario, Scenarios, Options(k), false))
  }

  /** The catalogue the flow walks through. */
  function Catalogue(): Flow.Catalogue
  {
    Flow.Catalogue(
      LikertQuestions(FoundationIds, Foundations),
      LikertQuestions(PersonalityIds, Personality),
      ScenarioQuestions(),
      LikertQuestions(PearlIds, Pearl))
  }

  predicate DistinctStrings(ids: seq<string>)
  {
    forall i, j :: 0 <= i < j < |ids| ==> ids[i] != ids[j]
  }

  lemma LikertDistinct(ids: seq<string>, section: Section)
    requires DistinctStrings(ids)
    ensures FlowProperties.DistinctIds(LikertQuestions(ids, section))
  {
  }

  /** No two questions of a section share an id, so the progress bar's
      count is a count of answered questions. */
  lemma SectionsDistinct(section: Section)
    ensures FlowProperties.DistinctIds(Catalogue().Of(section))
  {
    match section
    case Foundations =>
      assert DistinctStrings(FoundationIds);
      LikertDistinct(FoundationIds, Foundations);
    case Personality =>
      assert DistinctStrings(PersonalityIds);
      LikertDistinct(PersonalityIds, Personality);
    case Scenarios =>
    case Pearl =>
      assert DistinctStrings(PearlIds);
      LikertDistinct(PearlIds, Pearl);
  }

  lemma LikertHaveNoOptions(ids: seq<string>, section: Section)
    ensures forall q :: q in LikertQuestions(ids, section) ==> q.options == []
  {
    forall q | q in LikertQuestions(ids, section) ensures q.options == [] {
      var i :| 0 <= i < |ids| && LikertQuestions(ids, section)[i] == q;
    }
  }

  lemma ScenarioOptionsInScale()
    ensures forall q, o :: q in ScenarioQuestions() && o in q.options ==> 1.0 <= o.score <= 5.0
  {
    forall q, o | q in ScenarioQuestions() && o in q.options ensures 1.0 <= o.score <= 5.0 {
      var k :| 0 <= k < 3 && ScenarioQuestions()[k] == q;
      var i :| 0 <= i < 4 && Options(k)[i] == o;
      assert OptionScores[k] in OptionScores;
    }
  }

  /** The catalogue has 23 questions, and every scenario option scores
      between 1 and 5. */
  lemma CatalogueShape()
    ensures |Catalogue().All()| == 23
    ensures FlowProperties.OptionsInScale(Catalogue())
  {
    var cat := Catalogue();
    LikertHaveNoOptions(FoundationIds, Foundations);
    LikertHaveNoOptions(PersonalityIds, Personality);
    LikertHaveNoOptions(PearlIds, Pearl);
    ScenarioOptionsInScale();
    forall q | q in cat.All()
      ensures q in cat.foundations || q in cat.personality || q in cat.scenarios || q in cat.pearl
    {
    }
  }

  /** No personality question, and no PEARL question but pearl2, is evidence
      for a core dimension. */
  lemma OutsideCoreEvidence(id: string, k: nat)
    requires id in PersonalityIds || id in {"pearl1", "pearl3", "pearl4", "pearl5"}
    requires k < Scoring.CoreCount
    ensures id !in Scoring.Evidence(Scoring.CoreDimension(k))
  {
  }

  /** Answers to the personality questions, and to the PEARL questions other
      than pearl2, change nothing in the core results. */
  lemma PersonalityAnswersIgnored(responses: seq<Response>, extra: seq<Response>)
    requires forall i :: 0 <= i < |extra| ==>
               extra[i].questionId in PersonalityIds
               || extra[i].questionId in {"pearl1", "pearl3", "pearl4", "pearl5"}
    ensures var before, after := Scoring.CalculateResults(responses), Scoring.CalculateResults(responses + extra);
      && after.dimensionScores == before.dimensionScores
      && after.overallScore == before.overallScore
      && after.profileLabel == before.profileLabel
      && after.strengths == before.strengths
      && after.growthAreas == before.growthAreas
      && after.recommendations == before.recommendations
  {
    forall i, k | 0 <= i < |extra| && 0 <= k < Scoring.CoreCount
      ensures extra[i].questionId !in Scoring.Evidence(Scoring.CoreDimension(k))
    {
      OutsideCoreEvidence(extra[i].questionId, k);
    }
    ResultsProperties.NonCoreAnswersIgnored(responses, extra);
  }

  /** Over the shipped catalogue, a section shows as completed exactly when
      each of its questions has a response. */
  lemma CatalogueProgress(s: Flow.State, section: Section)
    requires FlowProperties.Inv(Catalogue(), s)
    ensures section in Flow.SectionProgress(Catalogue(), s).completed
            <==> forall q :: q in Catalogue().Of(section) ==> Flow.FindResponse(s.responses, q.id).Some?
  {
    SectionsDistinct(section);
    FlowProperties.ProgressMeansAnswered(Catalogue(), s, section);
  }

  /** Over the shipped catalogue, ratings from the 1 to 5 scale keep every
      recorded value on that scale. */
  lemma CatalogueKeepsScale(s: Flow.State, e: Flow.Event)
    requires Flow.Valid(Catalogue(), s) && Scoring.InScale(s.responses)
    requires e.Rate? ==> 1.0 <= e.rating <= 5.0
    ensures Scoring.InScale(Flow.Dispatch(Catalogue(), s, e).state.responses)
  {
    CatalogueShape();
    FlowProperties.DispatchKeepsScale(Catalogue(), s, e);
  }
}

=== FILE: results_properties.dfy ===
/** Properties of the assembled results: layout, overall mean, PEARL
    scores, profile and recommendations, stated in terms of the five core
    dimension scores. */
module ResultsProperties {
  import opened Wrappers
  import opened Assessment
  import opened Labels
  import opened Scoring
  import opened ScoringProperties

  /** The score of the k-th core dimension. */
  function CoreScore(responses: seq<Response>, k: nat): real
    requires k < CoreCount
  {
    ScoreFor(responses, CoreDimension(k))
  }

  /** Entry k of the list scores core dimension k. */
  lemma ScoreCoreAt(responses: seq<Response>, k: nat)
    requires k < CoreCount
    ensures ScoreCore(responses)[k] == ScoreDimension(responses, CoreDimension(k))
  {
  }

  /** The k-th entry of the results is the k-th core dimension: its name,
      its score, and the band of that score. */
  lemma EntryAt(responses: seq<Response>, k: nat)
    requires k < CoreCount
    ensures var e := CalculateResults(responses).dimensionScores[k];
      && e.dimension == CoreDimension(k).Name()
      && e.score == CoreScore(responses, k)
      && e.band == ScoreLabel(e.score)
  {
    ScoreCoreAt(responses, k);
    ScoreDimensionFields(responses, CoreDimension(k));
  }

  lemma ScoreDimensionFields(responses: seq<Response>, d: Dimension)
    ensures ScoreDimension(responses, d).dimension == d.Name()
    ensures ScoreDimension(responses, d).score == ScoreFor(responses, d)
    ensures ScoreDimension(responses, d).band == ScoreLabel(ScoreFor(responses, d))
  {
  }

  /** The five core names, in order, name the entries of a results list. */
  predicate CoreLayout(ds: seq<DimensionScore>)
  {
    && |ds| == CoreCount
    && forall i :: 0 <= i < |ds| ==> ds[i].dimension == CoreDimension(i).Name()
  }

  lemma ResultsLayout(responses: seq<Response>)
    ensures CoreLayout(CalculateResults(responses).dimensionScores)
  {
    var ds := CalculateResults(responses).dimensionScores;
    forall k | 0 <= k < |ds| ensures ds[k].dimension == CoreDimension(k).Name() {
      EntryAt(responses, k);
    }
  }

  lemma SumScoresFive(ds: seq<DimensionScore>)
    requires |ds| == 5
    ensures SumScores(ds) == ds[0].score + ds[1].score + ds[2].score + ds[3].score + ds[4].score
  {
    assert SumScores(ds[4..]) == ds[4].score by {
      assert ds[4..][1..] == [];
    }
    assert SumScores(ds[3..]) == ds[3].score + SumScores(ds[4..]) by {
      assert ds[3..][1..] == ds[4..];
    }
    assert SumScores(ds[2..]) == ds[2].score + SumScores(ds[3..]) by {
      assert ds[2..][1..] == ds[3..];
    }
    assert SumScores(ds[1..]) == ds[1].score + SumScores(ds[2..]) by {
      assert ds[1..][1..] == ds[2..];
    }
  }

  /** The overall score is the unweighted mean of the five entries of the
      results list (by EntryAt, the five core scores). */
  lemma OverallIsMean(responses: seq<Response>)
    ensures var res := CalculateResults(responses);
      var ds := res.dimensionScores;
      res.overallScore == (ds[0].score + ds[1].score + ds[2].score + ds[3].score + ds[4].score) / 5.0
  {
    var ds := CalculateResults(responses).dimensionScores;
    SumScoresFive(ds);
    assert CalculateResults(responses).overallScore == SumScores(ds) / 5.0 by {
      assert |ds| as real == 5.0;
    }
  }

  /** PEARL empathy and core empathy read the same table entry. */
  lemma PearlEmpathyIsCoreEmpathy(responses: seq<Response>)
    ensures CalculateResults(responses).pearlScores.empathy == CalculateResults(responses).dimensionScores[2].score
  {
    EntryAt(responses, 2);
  }

  lemma InScaleScoreBounds(responses: seq<Response>, d: Dimension)
    requires InScale(responses)
    ensures 0.0 <= ScoreFor(responses, d) <= 100.0
  {
    RelevantInScale(responses, Evidence(d));
    ScoreOfBounds(responses, Evidence(d));
  }

  /** With every answer on the 1..5 scale, all nine dimension scores lie in
      0..100. */
  lemma AllScoresInRange(responses: seq<Response>)
    requires InScale(responses)
    ensures forall d: Dimension :: 0.0 <= ScoreFor(responses, d) <= 100.0
  {
    forall d: Dimension ensures 0.0 <= ScoreFor(responses, d) <= 100.0 {
      InScaleScoreBounds(responses, d);
    }
  }

  lemma EntriesInRange(responses: seq<Response>)
    requires InScale(responses)
    ensures var ds := CalculateResults(responses).dimensionScores;
      forall k :: 0 <= k < |ds| ==> 0.0 <= ds[k].score <= 100.0
  {
    var ds := CalculateResults(responses).dimensionScores;
    forall k | 0 <= k < |ds| ensures 0.0 <= ds[k].score <= 100.0 {
      EntryAt(responses, k);
      InScaleScoreBounds(responses, CoreDimension(k));
    }
  }

  lemma OverallInRange(responses: seq<Response>)
    requires InScale(responses)
    ensures 0.0 <= CalculateResults(responses).overallScore <= 100.0
  {
    EntriesInRange(responses);
    OverallIsMean(responses);
  }

  lemma PearlInRange(responses: seq<Response>)
    requires InScale(responses)
    ensures var p := CalculateResults(responses).pearlScores;
      && 0.0 <= p.presence <= 100.0
      && 0.0 <= p.empathy <= 100.0
      && 0.0 <= p.affectRegulation <= 100.0
      && 0.0 <= p.relationalAgility <= 100.0
      && 0.0 <= p.leadershipMindset <= 100.0
  {
    AllScoresInRange(responses);
  }

  /** With every answer on the 1..5 scale, every score and the overall score
      in the results lie in 0..100. */
  lemma ResultsInRange(responses: seq<Response>)
    requires InScale(responses)
    ensures var res := CalculateResults(responses);
      && (forall k :: 0 <= k < |res.dimensionScores| ==> 0.0 <= res.dimensionScores[k].score <= 100.0)
      && 0.0 <= res.overallScore <= 100.0
      && 0.0 <= res.pearlScores.presence <= 100.0
      && 0.0 <= res.pearlScores.empathy <= 100.0
      && 0.0 <= res.pearlScores.affectRegulation <= 100.0
      && 0.0 <= res.pearlScores.relationalAgility <= 100.0
      && 0.0 <= res.pearlScores.leadershipMindset <= 100.0
  {
    EntriesInRange(responses);
    OverallInRange(responses);
    PearlInRange(responses);
  }

  /** The results list is built from the scores alone: equal core scores give
      equal entries. */
  lemma ScoreCoreCongruent(r1: seq<Response>, r2: seq<Response>)
    requires forall k :: 0 <= k < CoreCount ==> ScoreFor(r1, CoreDimension(k)) == ScoreFor(r2, CoreDimension(k))
    ensures ScoreCore(r1) == ScoreCore(r2)
  {
    forall k | 0 <= k < CoreCount ensures ScoreCore(r1)[k] == ScoreCore(r2)[k] {
      var d := CoreDimension(k);
      ScoreCoreAt(r1, k);
      ScoreCoreAt(r2, k);
      ScoreDimensionCongruent(r1, r2, d);
    }
  }

  lemma ScoreDimensionCongruent(r1: seq<Response>, r2: seq<Response>, d: Dimension)
    requires ScoreFor(r1, d) == ScoreFor(r2, d)
    ensures ScoreDimension(r1, d) == ScoreDimension(r2, d)
  {
  }

  /** Answers to questions that evidence no core dimension change nothing
      but the PEARL scores: not the core scores, the overall score, the
      profile or the advice. */
  lemma NonCoreAnswersIgnored(responses: seq<Response>, extra: seq<Response>)
    requires forall i, k :: 0 <= i < |extra| && 0 <= k < CoreCount ==>
               extra[i].questionId !in Evidence(CoreDimension(k))
    ensures var before, after := CalculateResults(responses), CalculateResults(responses + extra);
      && after.dimensionScores == before.dimensionScores
      && after.overallScore == before.overallScore
      && after.profileLabel == before.profileLabel
      && after.strengths == before.strengths
      && after.growthAreas == before.growthAreas
      && after.recommendations == before.recommendations
  {
    forall k | 0 <= k < CoreCount
      ensures ScoreFor(responses + extra, CoreDimension(k)) == ScoreFor(responses, CoreDimension(k))
    {
      var ids := Evidence(CoreDimension(k));
      RelevantAppend(responses, extra, ids);
      RelevantNone(extra, ids);
      assert Relevant(responses + extra, ids) == Relevant(responses, ids);
    }
    ScoreCoreCongruent(responses + extra, responses);
  }

  /** An answer to pearl2 is empathy evidence, so it moves the core empathy
      score (and with it the overall score), not only the PEARL one. */
  lemma PearlAnswerMovesEmpathy()
    ensures CoreScore([], 2) == 0.0
    ensures CoreScore([Response("pearl2", 5.0, None, None)], 2) == 100.0
  {
    var r := [Response("pearl2", 5.0, None, None)];
    assert r[0] in Relevant(r, Evidence(Empathy));
    UniformScore(r, Evidence(Empathy), 5.0);
  }
}

=== FILE: scoring.dfy ===
/** The scoring and profiling engine (src/utils/scoring.ts): per-dimension
    scores, bands and interpretations, the assembled results, the profile
    decision tree and the recommendations. Everything is a pure function of
    the response list. */
module Scoring {
  import opened Wrappers
  import opened Assessment
  import opened Labels
  import Text

  // ---------------------------------------------------------------------
  // Dimension mapper and scorer
  // ---------------------------------------------------------------------

  /** The dimensions the engine knows: the five core ones and the PEARL
      ones (PEARL empathy is the core empathy dimension). */
  datatype Dimension =
    | SelfAwareness | SelfRegulation | Empathy | SocialSkills | Motivation
    | Presence | AffectRegulation | RelationalAgility | LeadershipMindset
  {
    /** The name the source uses for the dimension. */
    function Name(): string
    {
      match this
      case SelfAwareness => "self-awareness"
      case SelfRegulation => "self-regulation"
      case Empathy => "empathy"
      case SocialSkills => "social-skills"
      case Motivation => "motivation"
      case Presence => "presence"
      case AffectRegulation => "affect-regulation"
      case RelationalAgility => "relational-agility"
      case LeadershipMindset => "leadership-mindset"
    }
  }

  /** The keys of the hand-curated table: the dimension a name denotes, if
      the table has an entry for it. */
  function ParseDimension(name: string): Option<Dimension>
  {
    match name
    case "self-awareness" => Some(SelfAwareness)
    case "self-regulation" => Some(SelfRegulation)
    case "empathy" => Some(Empathy)
    case "social-skills" => Some(SocialSkills)
    case "motivation" => Some(Motivation)
    case "presence" => Some(Presence)
    case "affect-regulation" => Some(AffectRegulation)
    case "relational-agility" => Some(RelationalAgility)
    case "leadership-mindset" => Some(LeadershipMindset)
    case _ => None
  }

  /** The entries of the hand-curated table: the ids of the questions that
      evidence each dimension. */
  function Evidence(d: Dimension): seq<string>
  {
    match d
    case SelfAwareness => ["f1", "f3", "s2"]
    case SelfRegulation => ["f2", "f3", "f5", "f6", "f8", "f9", "f11", "s1", "s2", "s3"]
    case Empathy => ["f4", "pearl2"]
    case SocialSkills => ["f5", "f8", "s3"]
    case Motivation => ["f6", "f9", "f11", "s1"]
    case Presence => ["pearl1"]
    case AffectRegulation => ["pearl3"]
    case RelationalAgility => ["pearl4"]
    case LeadershipMindset => ["pearl5"]
  }

  /** The table lookup by name; a name without an entry is evidenced by
      nothing. */
  function EvidenceIds(dimension: string): seq<string>
  {
    match ParseDimension(dimension)
    case Some(d) => Evidence(d)
    case None => []
  }

  /** The responses that answer one of `ids`, in their original order. */
  function Relevant(responses: seq<Response>, ids: seq<string>): (rel: seq<Response>)
    ensures |rel| <= |responses|
    ensures forall r :: r in rel <==> r in responses && r.questionId in ids
  {
    if responses == [] then []
    else
      (if responses[0].questionId in ids then [responses[0]] else [])
      + Relevant(responses[1..], ids)
  }

  /** Sum of the raw values; reverse-scored questions are summed as stored. */
  function Sum(rs: seq<Response>): real
  {
    if rs == [] then 0.0 else rs[0].value + Sum(rs[1..])
  }

  /** The linear map from the 1..5 answer scale onto 0..100. */
  function Rescale(mean: real): real
  {
    ((mean - 1.0) / 4.0) * 100.0
  }

  /** The rescaled mean of the responses answering one of `ids`, or 0 when
      there are none. */
  function ScoreOf(responses: seq<Response>, ids: seq<string>): (score: real)
    ensures (forall i :: 0 <= i < |responses| ==> responses[i].questionId !in ids) ==> score == 0.0
  {
    var rel := Relevant(responses, ids);
    if |rel| == 0 then 0.0 else Rescale(Sum(rel) / |rel| as real)
  }

  /** Score of one dimension, looked up by name. */
  function CalculateDimensionScore(responses: seq<Response>, dimension: string): (score: real)
    ensures ParseDimension(dimension).None? ==> score == 0.0
    ensures (forall i :: 0 <= i < |responses| ==> responses[i].questionId !in EvidenceIds(dimension))
            ==> score == 0.0
  {
    ScoreOf(responses, EvidenceIds(dimension))
  }

  /** Score of a dimension the table has an entry for. */
  function ScoreFor(responses: seq<Response>, d: Dimension): real
  {
    ScoreOf(responses, Evidence(d))
  }

  /** Every answer value lies on the 1..5 scale. */
  predicate InScale(rs: seq<Response>)
  {
    forall i :: 0 <= i < |rs| ==> 1.0 <= rs[i].value <= 5.0
  }

  // ---------------------------------------------------------------------
  // Profiler
  // ---------------------------------------------------------------------

  /** The score of the first entry named `dimension`, or 0 when there is
      none (the source's `find(...)?.score || 0`). */
  function FindScore(ds: seq<DimensionScore>, dimension: string): (score: real)
    ensures score == 0.0 || exists i :: 0 <= i < |ds| && ds[i].dimension == dimension && ds[i].score == score
  {
    if ds == [] then 0.0
    else if ds[0].dimension == dimension then ds[0].score
    else FindScore(ds[1..], dimension)
  }

  /** The four-way decision tree over self-regulation (r), self-awareness (a)
      and empathy (e); the first matching rule wins. */
  function DetermineProfile(ds: seq<DimensionScore>): (p: Profile)
    ensures var r, a, e := FindScore(ds, "self-regulation"), FindScore(ds, "self-awareness"), FindScore(ds, "empathy");
      && (p == ResilientOperator <==> r >= 70.0 && a >= 70.0)
      && (p == EmpathicStabilizer <==> e >= 70.0 && r >= 60.0 && (r < 70.0 || a < 70.0))
      && (p == WatcherRegulator <==> a >= 60.0 && r < 60.0)
      && (p == ReactiveLearner <==> (r < 60.0 && a < 60.0) || (r >= 60.0 && e < 70.0 && (r < 70.0 || a < 70.0)))
  {
    var r := FindScore(ds, "self-regulation");
    var a := FindScore(ds, "self-awareness");
    var e := FindScore(ds, "empathy");
    if r >= 70.0 && a >= 70.0 then ResilientOperator
    else if e >= 70.0 && r >= 60.0 then EmpathicStabilizer
    else if a >= 60.0 && r < 60.0 then WatcherRegulator
    else ReactiveLearner
  }

  // ---------------------------------------------------------------------
  // Recommendation generator
  // ---------------------------------------------------------------------

  /** A dimension name made readable: its first hyphen becomes a space. */
  function HumanName(dimension: string): (readable: string)
    ensures |readable| == |dimension|
    ensures '-' !in dimension ==> readable == dimension
    ensures forall i :: 0 <= i < |dimension| && dimension[i] == '-' && '-' !in dimension[..i] ==> readable[i] == ' '
    ensures forall i :: 0 <= i < |dimension| && readable[i] != dimension[i] ==>
              dimension[i] == '-' && readable[i] == ' ' && '-' !in dimension[..i]
  {
    Text.ReplaceFirst(dimension, '-', ' ')
  }

  /** The strength one entry contributes: one at 70 and above. */
  function StrengthOf(d: DimensionScore): seq<string>
  {
    if d.score >= 70.0 then ["Strong " + HumanName(d.dimension)] else []
  }

  /** The growth area one entry contributes: one below 50, checked only
      when the entry is not a strength. */
  function GrowthOf(d: DimensionScore): seq<string>
  {
    if d.score >= 70.0 then []
    else if d.score < 50.0 then [HumanName(d.dimension) + " development"]
    else []
  }

  /** The strengths of every entry, in list order. */
  function Strengths(ds: seq<DimensionScore>): (strengths: seq<string>)
    ensures |strengths| <= |ds|
    ensures forall x :: x in strengths ==> |x| >= 7 && x[..7] == "Strong "
  {
    if ds == [] then [] else StrengthOf(ds[0]) + Strengths(ds[1..])
  }

  /** The growth areas of every entry, in list order. */
  function GrowthAreas(ds: seq<DimensionScore>): (areas: seq<string>)
    ensures |areas| <= |ds|
    ensures forall x :: x in areas ==> |x| >= 12 && x[|x| - 12..] == " development"
  {
    if ds == [] then [] else GrowthOf(ds[0]) + GrowthAreas(ds[1..])
  }

  /** The position the source's `reduce` lands on: a left fold keeping the
      current minimum and replacing it only on a strictly smaller score. The
      source's `reduce` has no initial value, so an empty list is an error
      there; callers always pass the five core scores. */
  function LowestIndex(ds: seq<DimensionScore>): (k: nat)
    requires |ds| > 0
    ensures k < |ds|
    ensures forall j :: 0 <= j < |ds| ==> ds[k].score <= ds[j].score
  {
    if |ds| == 1 then 0
    else
      var m := LowestIndex(ds[..|ds| - 1]);
      if ds[|ds| - 1].score < ds[m].score then |ds| - 1 else m
  }

  const RegulationTips: seq<string> := [
    "Practice the 4-7-8 breathing technique when you feel stress rising",
    "Use a 'pause button' - count to 5 before responding in tense situations"
  ]

  const AwarenessTips: seq<string> := [
    "Start a daily emotion check-in practice - notice and name what you're feeling",
    "Pay attention to physical stress signals like tension, heart rate, or breathing changes"
  ]

  /** Recommendations keyed on the lowest dimension; only self-regulation and
      self-awareness have any. */
  function Recommendations(ds: seq<DimensionScore>): (recs: seq<string>)
    requires |ds| > 0
    ensures recs == [] || recs == RegulationTips || recs == AwarenessTips
  {
    var lowest := ds[LowestIndex(ds)].dimension;
    if lowest == "self-regulation" then RegulationTips
    else if lowest == "self-awareness" then AwarenessTips
    else []
  }

  datatype Advice = Advice(strengths: seq<string>, growthAreas: seq<string>, recommendations: seq<string>)

  /** The advice for a list of entries: its strengths, its growth areas and
      the tips for its lowest entry. */
  function GenerateRecommendations(ds: seq<DimensionScore>): (advice: Advice)
    requires |ds| > 0
    ensures |advice.strengths| <= |ds| && |advice.growthAreas| <= |ds|
    ensures forall x :: x in advice.strengths ==> |x| >= 7 && x[..7] == "Strong "
    ensures forall x :: x in advice.growthAreas ==> |x| >= 12 && x[|x| - 12..] == " development"
    ensures advice.recommendations == [] || advice.recommendations == RegulationTips
            || advice.recommendations == AwarenessTips
  {
    Advice(Strengths(ds), GrowthAreas(ds), Recommendations(ds))
  }

  // ---------------------------------------------------------------------
  // Results assembler
  // ---------------------------------------------------------------------

  /** The number of core dimensions. */
  const CoreCount: nat := 5

  /** The core dimensions, in the order the results list them. */
  function CoreDimension(k: nat): Dimension
    requires k < CoreCount
  {
    match k
    case 0 => SelfAwareness
    case 1 => SelfRegulation
    case 2 => Empathy
    case 3 => SocialSkills
    case _ => Motivation
  }

  /** One entry of the results list: name, score and band; the
      interpretation is derived from the name and the score. */
  function ScoreDimension(responses: seq<Response>, d: Dimension): DimensionScore
  {
    var score := ScoreFor(responses, d);
    DimensionScore(d.Name(), score, ScoreLabel(score))
  }

  /** The results list: the source's `map` over the core dimension list. */
  function ScoreCore(responses: seq<Response>): (ds: seq<DimensionScore>)
    ensures |ds| == CoreCount
  {
    seq(CoreCount, k requires 0 <= k < CoreCount => ScoreDimension(responses, CoreDimension(k)))
  }

  function SumScores(ds: seq<DimensionScore>): real
  {
    if ds == [] then 0.0 else ds[0].score + SumScores(ds[1..])
  }

  /** The whole results record for one response list. */
  function CalculateResults(responses: seq<Response>): (res: Results)
    ensures |res.dimensionScores| == CoreCount
  {
    var dimensionScores := ScoreCore(responses);
    var overallScore := SumScores(dimensionScores) / |dimensionScores| as real;
    var pearlScores := PearlScores(
      ScoreFor(responses, Presence),
      ScoreFor(responses, Empathy),
      ScoreFor(responses, AffectRegulation),
      ScoreFor(responses, RelationalAgility),
      ScoreFor(responses, LeadershipMindset));
    var advice := GenerateRecommendations(dimensionScores);
    Results(overallScore, dimensionScores, DetermineProfile(dimensionScores),
            advice.strengths, advice.growthAreas, advice.recommendations, pearlScores)
  }
}

=== FILE: scoring_properties.dfy ===
/** Properties of the dimension table and the per-dimension scorer. */
module ScoringProperties {
  import opened Wrappers
  import opened Assessment
  import opened Scoring

  // ---------------------------------------------------------------------
  // Relevance
  // ---------------------------------------------------------------------

  /** Every known dimension is found in the table under its own name, and a
      name the table knows is exactly the name of what it denotes. */
  lemma NameRoundTrip(d: Dimension, name: string)
    ensures ParseDimension(d.Name()) == Some(d)
    ensures ParseDimension(name).Some? ==> ParseDimension(name).value.Name() == name
  {
  }

  /** Looking a known dimension up by its name scores its table entry. */
  lemma ScoreByName(responses: seq<Response>, d: Dimension)
    ensures CalculateDimensionScore(responses, d.Name()) == ScoreFor(responses, d)
  {
    NameRoundTrip(d, d.Name());
  }

  /** A response counts for a dimension exactly when its question id is listed
      in that dimension's table entry. */
  lemma RelevantIff(responses: seq<Response>, dimension: string, r: Response)
    ensures r in Relevant(responses, EvidenceIds(dimension)) <==>
              r in responses && ParseDimension(dimension).Some?
              && r.questionId in Evidence(ParseDimension(dimension).value)
  {
  }

  /** A dimension name with no table entry has no evidence and scores 0. */
  lemma NoEntryScoresZero(responses: seq<Response>, dimension: string)
    requires ParseDimension(dimension) == None
    ensures Relevant(responses, EvidenceIds(dimension)) == []
    ensures CalculateDimensionScore(responses, dimension) == 0.0
  {
  }

  /** Filtering commutes with concatenation, so evidence from two halves of a
      response list adds up. */
  lemma {:induction false} RelevantAppend(a: seq<Response>, b: seq<Response>, ids: seq<string>)
    ensures Relevant(a + b, ids) == Relevant(a, ids) + Relevant(b, ids)
  {
    if a == [] {
      assert a + b == b;
    } else {
      assert (a + b)[1..] == a[1..] + b;
      RelevantAppend(a[1..], b, ids);
    }
  }

  /** Responses that answer none of `ids` contribute nothing. */
  lemma RelevantNone(rs: seq<Response>, ids: seq<string>)
    requires forall i :: 0 <= i < |rs| ==> rs[i].questionId !in ids
    ensures Relevant(rs, ids) == []
  {
  }

  /** One step of the filter: the head contributes its value when it is
      evidence, and nothing otherwise. */
  lemma RelevantHead(responses: seq<Response>, ids: seq<string>)
    requires responses != []
    ensures |Relevant(responses, ids)|
              == (if responses[0].questionId in ids then 1 else 0) + |Relevant(responses[1..], ids)|
    ensures Sum(Relevant(responses, ids))
              == (if responses[0].questionId in ids then responses[0].value else 0.0)
                 + Sum(Relevant(responses[1..], ids))
  {
    var rest := Relevant(responses[1..], ids);
    if responses[0].questionId in ids {
      assert ([responses[0]] + rest)[1..] == rest;
    } else {
      assert [] + rest == rest;
    }
  }

  // ---------------------------------------------------------------------
  // Bounds and fixed points of the rescaling
  // ---------------------------------------------------------------------

  lemma {:induction false} SumBounds(rs: seq<Response>)
    requires InScale(rs)
    ensures |rs| as real <= Sum(rs) <= 5.0 * |rs| as real
  {
    if rs != [] {
      assert InScale(rs[1..]) by {
        forall i | 0 <= i < |rs[1..]| ensures 1.0 <= rs[1..][i].value <= 5.0 {
          assert rs[1..][i] == rs[i + 1];
        }
      }
      SumBounds(rs[1..]);
    }
  }

  lemma MeanBounds(total: real, n: real, lo: real, hi: real)
    requires n > 0.0
    requires lo * n <= total <= hi * n
    ensures lo <= total / n <= hi
  {
    var mean := total / n;
    assert mean * n == total;
  }

  /** With every matched value on the 1..5 scale, the score lies in 0..100. */
  lemma ScoreOfBounds(responses: seq<Response>, ids: seq<string>)
    requires InScale(Relevant(responses, ids))
    ensures 0.0 <= ScoreOf(responses, ids) <= 100.0
  {
    var rel := Relevant(responses, ids);
    if |rel| > 0 {
      SumBounds(rel);
      MeanBounds(Sum(rel), |rel| as real, 1.0, 5.0);
    }
  }

  /** Every value on the scale implies every matched value on the scale. */
  lemma RelevantInScale(responses: seq<Response>, ids: seq<string>)
    requires InScale(responses)
    ensures InScale(Relevant(responses, ids))
  {
    var rel := Relevant(responses, ids);
    forall i | 0 <= i < |rel| ensures 1.0 <= rel[i].value <= 5.0 {
      assert rel[i] in responses;
    }
  }

  /** With every answer on the 1..5 scale, every dimension score, known
      dimension or not, lies in 0..100. */
  lemma ScoreBounds(responses: seq<Response>, dimension: string)
    requires InScale(responses)
    ensures 0.0 <= CalculateDimensionScore(responses, dimension) <= 100.0
  {
    RelevantInScale(responses, EvidenceIds(dimension));
    ScoreOfBounds(responses, EvidenceIds(dimension));
  }

  lemma {:induction false} SumUniform(rs: seq<Response>, v: real)
    requires forall i :: 0 <= i < |rs| ==> rs[i].value == v
    ensures Sum(rs) == |rs| as real * v
  {
    if rs != [] {
      assert forall i :: 0 <= i < |rs[1..]| ==> rs[1..][i].value == v by {
        forall i | 0 <= i < |rs[1..]| ensures rs[1..][i].value == v {
          assert rs[1..][i] == rs[i + 1];
        }
      }
      SumUniform(rs[1..], v);
    }
  }

  /** The mean of equal values is that value. */
  lemma MeanUniform(rs: seq<Response>, v: real)
    requires |rs| > 0
    requires forall i :: 0 <= i < |rs| ==> rs[i].value == v
    ensures Sum(rs) / |rs| as real == v
  {
    SumUniform(rs, v);
    var n := |rs| as real;
    assert (n * v) / n == v;
  }

  /** When all the matched responses carry the same value, the score is
      that value rescaled. */
  lemma UniformScore(responses: seq<Response>, ids: seq<string>, v: real)
    requires |Relevant(responses, ids)| > 0
    requires forall r :: r in Relevant(responses, ids) ==> r.value == v
    ensures ScoreOf(responses, ids) == (v - 1.0) * 25.0
  {
    var rel := Relevant(responses, ids);
    forall i | 0 <= i < |rel| ensures rel[i].value == v {
      assert rel[i] in rel;
    }
    MeanUniform(rel, v);
  }

  /** When all the evidence carries the same value, the score is that value
      rescaled. */
  lemma UniformEvidence(responses: seq<Response>, dimension: string, v: real)
    requires |Relevant(responses, EvidenceIds(dimension))| > 0
    requires forall r :: r in Relevant(responses, EvidenceIds(dimension)) ==> r.value == v
    ensures CalculateDimensionScore(responses, dimension) == (v - 1.0) * 25.0
  {
    UniformScore(responses, EvidenceIds(dimension), v);
  }

  /** The score is the rescaled mean of the evidence, however the values
      are spread: a mean of 1 gives 0, a mean of 3 gives 50 and a mean of 5
      gives 100. */
  lemma ScaleAnchors(responses: seq<Response>, dimension: string)
    requires |Relevant(responses, EvidenceIds(dimension))| > 0
    ensures var rel := Relevant(responses, EvidenceIds(dimension));
            var mean := Sum(rel) / |rel| as real;
            var score := CalculateDimensionScore(responses, dimension);
            && score == (mean - 1.0) * 25.0
            && (mean == 1.0 ==> score == 0.0)
            && (mean == 3.0 ==> score == 50.0)
            && (mean == 5.0 ==> score == 100.0)
  {
  }

  /** Mixed evidence can sit at the midpoint: self-awareness answered 1 on
      f1 and 5 on f3 scores 50. */
  lemma MixedMidpoint()
    ensures CalculateDimensionScore(
              [Response("f1", 1.0, None, None), Response("f3", 5.0, None, None)], "self-awareness")
            == 50.0
  {
    var rs := [Response("f1", 1.0, None, None), Response("f3", 5.0, None, None)];
    NameRoundTrip(SelfAwareness, "self-awareness");
    RelevantHead(rs, Evidence(SelfAwareness));
    RelevantHead(rs[1..], Evidence(SelfAwareness));
    assert Relevant(rs, Evidence(SelfAwareness)) == rs;
  }

  lemma InScaleTail(rs: seq<Response>)
    requires rs != [] && InScale(rs)
    ensures InScale(rs[1..])
  {
    forall i | 0 <= i < |rs[1..]| ensures 1.0 <= rs[1..][i].value <= 5.0 {
      assert rs[1..][i] == rs[i + 1];
    }
  }

  /** On the 1..5 scale, values summing to their count are all 1, and values
      summing to five times their count are all 5. */
  lemma {:induction false} ExtremeSumUniform(rs: seq<Response>)
    requires InScale(rs)
    ensures Sum(rs) == |rs| as real ==> forall i :: 0 <= i < |rs| ==> rs[i].value == 1.0
    ensures Sum(rs) == 5.0 * |rs| as real ==> forall i :: 0 <= i < |rs| ==> rs[i].value == 5.0
  {
    if rs != [] {
      InScaleTail(rs);
      SumBounds(rs[1..]);
      ExtremeSumUniform(rs[1..]);
      forall i | 1 <= i < |rs| ensures rs[i] == rs[1..][i - 1] {
      }
    }
  }

  lemma MeanExtremes(rs: seq<Response>)
    requires InScale(rs) && |rs| > 0
    ensures Sum(rs) / |rs| as real == 1.0 <==> forall i :: 0 <= i < |rs| ==> rs[i].value == 1.0
    ensures Sum(rs) / |rs| as real == 5.0 <==> forall i :: 0 <= i < |rs| ==> rs[i].value == 5.0
  {
    var n := |rs| as real;
    ExtremeSumUniform(rs);
    if Sum(rs) / n == 1.0 {
      assert Sum(rs) == n by { assert (Sum(rs) / n) * n == Sum(rs); }
    }
    if Sum(rs) / n == 5.0 {
      assert Sum(rs) == 5.0 * n by { assert (Sum(rs) / n) * n == Sum(rs); }
    }
    if forall i :: 0 <= i < |rs| ==> rs[i].value == 1.0 {
      MeanUniform(rs, 1.0);
    }
    if forall i :: 0 <= i < |rs| ==> rs[i].value == 5.0 {
      MeanUniform(rs, 5.0);
    }
  }

  /** With every answer on the scale, a score of 0 or 100 needs uniform
      evidence: a mean of 1 means every piece of evidence is 1, and a mean
      of 5 means every piece is 5. */
  lemma ExtremeMeans(responses: seq<Response>, dimension: string)
    requires InScale(responses)
    requires |Relevant(responses, EvidenceIds(dimension))| > 0
    ensures var rel := Relevant(responses, EvidenceIds(dimension));
            Sum(rel) / |rel| as real == 1.0 <==> forall i :: 0 <= i < |rel| ==> rel[i].value == 1.0
    ensures var rel := Relevant(responses, EvidenceIds(dimension));
            Sum(rel) / |rel| as real == 5.0 <==> forall i :: 0 <= i < |rel| ==> rel[i].value == 5.0
  {
    RelevantInScale(responses, EvidenceIds(dimension));
    MeanExtremes(Relevant(responses, EvidenceIds(dimension)));
  }

  /** A single piece of evidence scores as its own rescaled value. */
  lemma SingleEvidence(responses: seq<Response>, dimension: string)
    requires |Relevant(responses, EvidenceIds(dimension))| == 1
    ensures CalculateDimensionScore(responses, dimension)
              == (Relevant(responses, EvidenceIds(dimension))[0].value - 1.0) * 25.0
  {
    var rel := Relevant(responses, EvidenceIds(dimension));
    UniformEvidence(responses, dimension, rel[0].value);
  }

  // ---------------------------------------------------------------------
  // Monotonicity
  // ---------------------------------------------------------------------

  /** Changing one response's value keeps the amount of evidence and moves
      the evidence total by the change, when that response is evidence. */
  lemma {:induction false} ChangeValueShift(responses: seq<Response>, ids: seq<string>, i: nat, v: real)
    requires i < |responses|
    ensures |Relevant(responses[i := responses[i].(value := v)], ids)| == |Relevant(responses, ids)|
    ensures Sum(Relevant(responses[i := responses[i].(value := v)], ids))
              == Sum(Relevant(responses, ids))
                 + (if responses[i].questionId in ids then v - responses[i].value else 0.0)
  {
    var changed := responses[i := responses[i].(value := v)];
    assert changed[0].questionId == responses[0].questionId;
    RelevantHead(responses, ids);
    RelevantHead(changed, ids);
    if i == 0 {
      assert changed[1..] == responses[1..];
    } else {
      assert changed[0] == responses[0];
      assert changed[1..] == responses[1..][i - 1 := responses[i].(value := v)];
      ChangeValueShift(responses[1..], ids, i - 1, v);
    }
  }

  lemma DivMonotone(a: real, b: real, n: real)
    requires n > 0.0 && a <= b
    ensures a / n <= b / n
    ensures a < b ==> a / n < b / n
  {
    assert b / n - a / n == (b - a) / n;
  }

  /** Raising one matched response's value never lowers the dimension's
      score, and strictly raises it when the value strictly grows. */
  lemma RaiseValueMonotone(responses: seq<Response>, dimension: string, i: nat, v: real)
    requires i < |responses|
    requires responses[i].questionId in EvidenceIds(dimension)
    requires v >= responses[i].value
    ensures CalculateDimensionScore(responses[i := responses[i].(value := v)], dimension)
              >= CalculateDimensionScore(responses, dimension)
    ensures v > responses[i].value ==>
              CalculateDimensionScore(responses[i := responses[i].(value := v)], dimension)
                > CalculateDimensionScore(responses, dimension)
  {
    var ids := EvidenceIds(dimension);
    var changed := responses[i := responses[i].(value := v)];
    ChangeValueShift(responses, ids, i, v);
    assert responses[i] in Relevant(responses, ids);
    var n := |Relevant(responses, ids)| as real;
    var before := Sum(Relevant(responses, ids));
    var after := Sum(Relevant(changed, ids));
    DivMonotone(before, after, n);
    assert CalculateDimensionScore(responses, dimension) == Rescale(before / n);
    assert CalculateDimensionScore(changed, dimension) == Rescale(after / n);
  }

  /** Changing a response that is not evidence leaves the score unchanged. */
  lemma ChangeUnmatchedValue(responses: seq<Response>, dimension: string, i: nat, v: real)
    requires i < |responses|
    requires responses[i].questionId !in EvidenceIds(dimension)
    ensures CalculateDimensionScore(responses[i := responses[i].(value := v)], dimension)
              == CalculateDimensionScore(responses, dimension)
  {
    ChangeValueShift(responses, EvidenceIds(dimension), i, v);
  }
}

=== FILE: text.dfy ===
/** The two string operations the engine applies to names. */
module Text {

  /** ASCII lower-casing of one character. The strings lower-cased by the
      engine are fixed ASCII labels, so this agrees with `toLowerCase` on them. */
  function LowerChar(c: char): char
  {
    if 'A' <= c <= 'Z' then (c as int + 32) as char else c
  }

  function ToLower(s: string): (t: string)
    ensures |t| == |s|
    ensures forall i :: 0 <= i < |s| ==> t[i] == LowerChar(s[i])
  {
    seq(|s|, i requires 0 <= i < |s| => LowerChar(s[i]))
  }

  /** Replaces the first occurrence of `from` by `to`, like the source's
      `replace` with a one-character string pattern; later occurrences stay. */
  function ReplaceFirst(s: string, from: char, to: char): (t: string)
    ensures |t| == |s|
    ensures from !in s ==> t == s
    ensures forall i :: 0 <= i < |s| && s[i] == from && from !in s[..i] ==> t[i] == to
    ensures forall i :: 0 <= i < |s| && t[i] != s[i] ==>
              s[i] == from && t[i] == to && from !in s[..i]
  {
    if s == [] then []
    else if s[0] == from then [to] + s[1..]
    else [s[0]] + ReplaceFirst(s[1..], from, to)
  }
}

=== FILE: wrappers.dfy ===
/** The optional value used wherever the source has a field that may be
    `undefined` or a lookup that may find nothing. */
module Wrappers {

  datatype Option<+T> = None | Some(value: T)
}
